=== FILE: README.md ===
# Raneto string helpers in Dafny

Raneto is a flat-file documentation engine. A page is a Markdown file under a
content directory, and it may open with a `/* ... */` block of `Key: Value`
metadata lines. Around that, Raneto has a handful of pure string helpers.
This project models them and proves the behaviour the Raneto test suite
asserts, both as the suite's own examples and in general:

- `cleanString(text, useUnderscore)` turns a title or a path into a URL slug.
  It lower-cases the text and splits it into words at whitespace, `/`, `-` and
  `_`. It joins the words with single `-`s, or with `_`s when the flag is set,
  so no separator is left at either end.
- `slugToTitle(pathOrSlug)` works the other way. It keeps the last path
  segment and drops its extension, then capitalises each word and joins the
  words with single spaces.
- `processMeta(text)` reads the leading metadata block into a map. Each key is
  cleaned with underscores ("Multi word" becomes `multi_word`). Each value is
  the trimmed text after the first `:`.
- `stripMeta(text)` removes the leading metadata block and the newline after
  it. Everything else is kept, including a later block of the same form.
- `processVars(text, vars)` scans the text once from left to right. Each
  `%name%` that the scan reaches, and whose name is a configured variable, is
  replaced by that variable's value.
- `getPage` is modelled only for the slug and title it gives a file. The slug
  is the path relative to the content directory, without its extension. The
  title is the `title` metadata entry when there is one, and otherwise the
  slugToTitle of the slug.

The modules are:

- `Text`: characters, words and separators, `Join`, `Trim`.
- `SlugCodec`: cleanString and slugToTitle.
- `MetaBlock`: processMeta and stripMeta.
- `VarSubstitution`: processVars.
- `PageLoader`: the slug and title part of getPage.
- `RanetoTests`: the examples of `test/raneto.js`, each proved as a lemma.

Each example follows from a general lemma over arbitrary words. The literal
strings are only spelled out as the pieces that lemma takes.

Some members are helpers and have no row below: `SlugCodec.IsSlug`,
`SlugCodec.DashesToUnderscores`, `SlugCodec.ExtensionStart`,
`SlugCodec.CapitalizeEach`, `SlugCodec.Title`, `MetaBlock.FindClose` and
`PageLoader.RelativePath` are the steps the rows' members are built from. `MetaBlock.ParseLines`,
`MetaBlock.MetaOfEntries` and its lemmas (`MetaOfEntriesValid`,
`MetaOfEntriesKeys`, `MetaOfEntriesFirstWins`) are the fold that
`MetaBlock.MetaOfLines` runs over the parsed lines.

## Model

| member | source | states |
|---|---|---|
| SlugCodec.CleanString | test/raneto.js:9-27 | the result is a slug: lower-case words joined by single copies of the chosen separator (`_` with the flag, `-` without), with no leading, trailing or doubled separator and no character of the other separator |
| SlugCodec.CleanStringOfWords | test/raneto.js:9-27 | words joined by any separator character (space, `/`, `-`, `_`) come out lower-cased and joined by the one slug separator |
| SlugCodec.CleanStringSplit | test/raneto.js:13-15 | a separator inside the text splits it: the slug of `x c y` is the slug of `x` and the slug of `y` glued with one slug separator |
| SlugCodec.CleanStringDropsEdgeSeparators | test/raneto.js:13-19 | a separator at the start or end of the text (a leading or trailing `/`, a trailing space) leaves no trace in the slug |
| SlugCodec.CleanStringWord | test/raneto.js:9-11 | a single word comes out lower-cased and otherwise unchanged |
| SlugCodec.CleanStringKeepsSlug | test/raneto.js:9-27 | a slug already written with the chosen separator is left as it is |
| SlugCodec.CleanStringIdempotent | test/raneto.js:9-27 | cleaning a slug again changes nothing |
| SlugCodec.CleanStringUnderscores | test/raneto.js:21-27 | the underscore slug is the dash slug with every `-` turned into `_`, so hyphens already in the input become `_` too |
| SlugCodec.SlugToTitle | test/raneto.js:31-37 | the title has no `/`, its words are joined by single spaces, and every word starts with a character that is not a lower-case letter |
| SlugCodec.LastSegment | test/raneto.js:35-37 | the result has no `/`, is a suffix of the path, and is preceded by a `/` when it is not the whole path |
| SlugCodec.StripExtension | test/raneto.js:35-37 | the result is a prefix of the path |
| SlugCodec.Capitalize | test/raneto.js:31-37 | the word keeps its length and every character after the first; its first character is not a lower-case letter, and lower-casing it gives the same as lower-casing the original |
| SlugCodec.SlugToTitleOfWords | test/raneto.js:31-33 | a slug of words joined by `-`, `_` or a space gets those same words, each capitalised, joined by single spaces |
| SlugCodec.SlugToTitleLastSegment | test/raneto.js:35-37 | only the last path segment reaches the title |
| SlugCodec.SlugToTitleDropsExtension | test/raneto.js:35-37 | the file extension does not reach the title |
| SlugCodec.SlugToTitleRoundTrip | test/raneto.js:9-37 | cleaning the title of a dash slug without `/` or `.` gives the slug back |
| SlugCodec.TitleRoundTrip | test/raneto.js:31-33 | cleaning the capitalised, space-joined words of a dash slug gives the slug back |
| Text.Trim | test/raneto.js:41-52 | the result has no whitespace at either end and is a slice of the input with only whitespace cut off around it |
| MetaBlock.LeadingBlock | test/raneto.js:41-85 | a block is found only when the text starts with `/*`; the block runs to the first `*/`, and its body holds no `*/` |
| MetaBlock.LeadingBlockOf | test/raneto.js:60-85 | `/*` + a body without `*/` + `*/` is recognised as the leading block whatever follows it |
| MetaBlock.Lines | test/raneto.js:41-52 | the lines hold no newline and, joined with newlines, give the text back |
| MetaBlock.LinesOfJoin | test/raneto.js:41-52 | splitting lines joined with newlines gives those lines back |
| MetaBlock.ParseLine | test/raneto.js:41-52 | an entry has a non-empty underscore-slug key and a trimmed value; a line without `:` is not an entry |
| MetaBlock.ParseLineOfEntry | test/raneto.js:41-52 | a line `key:value` split at its first `:` gives the key cleaned with underscores and the value trimmed; a key with no word in it gives no entry |
| MetaBlock.MetaOfLines | test/raneto.js:41-52 | every key of the map is a non-empty underscore slug and every value is trimmed |
| MetaBlock.MetaOfEntryLine | test/raneto.js:41-52 | an entry line puts its key and value into the map of the lines after it |
| MetaBlock.MetaOfOtherLine | test/raneto.js:41-52 | a line that is not an entry adds nothing to the map |
| MetaBlock.MetaOfLinesKeys | test/raneto.js:41-52 | a key is in the map exactly when some line of the block defines it |
| MetaBlock.MetaOfLinesFirstWins | test/raneto.js:41-52 | the value of a key is the value from the first line that defines it |
| MetaBlock.ProcessMeta | test/raneto.js:41-56 | a text that does not open with `/*` gets the empty map; every key is an underscore slug and every value is trimmed |
| MetaBlock.ProcessMetaOfBlock | test/raneto.js:41-52 | only the first block is read: the map is that of the block's lines, whatever follows the block |
| MetaBlock.StripMeta | test/raneto.js:60-85 | the result is a suffix of the input; without a leading block it is the whole input, and with one it is at least the four marker characters shorter |
| MetaBlock.StripMetaOfBlock | test/raneto.js:60-85 | the leading block and the one newline after it are removed; the content after them is kept character for character, a later block included |
| MetaBlock.MetaLivesInStrippedPart | test/raneto.js:41-85 | the metadata is read entirely from the part that stripMeta removes |
| VarSubstitution.NextPercent | test/raneto.js:89-96 | the index found holds a `%` and no `%` comes before it from the start index; when there is no index, there is no `%` from the start index on |
| VarSubstitution.Placeholder | test/raneto.js:89-96 | a placeholder found is `%name%` with no `%` inside and a name that is a variable |
| VarSubstitution.ProcessVars | test/raneto.js:89-96 | with no variables the text is unchanged; what the pass does to each piece of text is stated by ProcessVarsPlain, ProcessVarsReplaces, ProcessVarsKeepsUnknown and ProcessVarsLonePercent |
| VarSubstitution.ProcessVarsReplaces | test/raneto.js:89-96 | `%name%` for a variable becomes the variable's value, which is not scanned again |
| VarSubstitution.ProcessVarsPlain | test/raneto.js:89-96 | text without `%` is copied unchanged, and the rest is processed on its own |
| VarSubstitution.ProcessVarsKeepsUnknown | test/raneto.js:89-96 | `%name%` whose name is not a variable is kept; its closing `%` may still open a later placeholder |
| VarSubstitution.ProcessVarsLonePercent | test/raneto.js:89-96 | a `%` with no `%` after it is ordinary text |
| PageLoader.PageIdentity | test/raneto.js:99-107 | the slug is no longer than the path; the title is the `title` metadata entry when present, and otherwise slugToTitle of the slug, a title with no `/` whose words are joined by single spaces |
| PageLoader.PageSlugOfFile | test/raneto.js:99-104 | a file `name.ext` under the content directory gets the slug `name`, sub-directories included, and without a `title` entry the title slugToTitle of `name` |
| PageLoader.PageTitleOfFile | test/raneto.js:99-104 | without a `title` entry, a file `dir/w1-...-wn.ext` under the content directory gets the title of its words, each capitalised, joined by single spaces, whatever the directory |
| RanetoTests.CleanStringHelloWorld | test/raneto.js:9-11 | "Hello World" becomes "hello-world" |
| RanetoTests.CleanStringPath | test/raneto.js:13-15 | "/some/direcoty-example/hello/" becomes "some-direcoty-example-hello" |
| RanetoTests.CleanStringTrailingSpace | test/raneto.js:17-19 | "with trailing space " becomes "with-trailing-space" |
| RanetoTests.CleanStringAlsoDoesUnderscores | test/raneto.js:21-23 | with the flag, "also does underscores" becomes "also_does_underscores" |
| RanetoTests.CleanStringUnderscorePath | test/raneto.js:25-27 | with the flag, "/some/direcoty-example/underscores/" becomes "some_direcoty_example_underscores" |
| RanetoTests.CleanStringOfPath | test/raneto.js:13-27 | a path `/a/b-d/e/` of lower-case words becomes `a`, `b`, `d`, `e` joined by the slug separator |
| RanetoTests.SlugToTitleHelloWorld | test/raneto.js:31-33 | "hello-world" becomes "Hello World" |
| RanetoTests.SlugToTitleFilePath | test/raneto.js:35-37 | "dir/some-example-file.md" becomes "Some Example File" |
| RanetoTests.ProcessMetaExample | test/raneto.js:41-52 | the four-line example block gives exactly the map title, description, sort ("4", a string) and multi_word |
| RanetoTests.ProcessMetaNoMeta | test/raneto.js:53-56 | "no meta here" gives the empty map |
| RanetoTests.StripMetaExample | test/raneto.js:60-68 | the example block and its newline are removed, leaving "This is the content" |
| RanetoTests.StripMetaNoMeta | test/raneto.js:69-72 | "This is the content" is left as it is |
| RanetoTests.StripMetaFirstBlockOnly | test/raneto.js:73-85 | only the first block is removed; the later block after the content stays character for character |
| RanetoTests.ProcessVarsOnePlaceholder | test/raneto.js:89-96 | a text with one placeholder for a variable and no other `%` gets the value in its place and is otherwise unchanged |
| RanetoTests.ProcessVarsExample | test/raneto.js:89-96 | "%base_url%" with base_url = "/base/url" is replaced in the example sentence |
| RanetoTests.PageIdentityExample | test/raneto.js:99-104 | "example-page.md" under the content directory gets the slug "example-page" and the title "Example Page" |

## Left out

- The implementation file `raneto.js` is not part of this model. The behaviour follows the test suite. Where the tests leave a case open, the model makes its own choice, and each such choice is listed below.
- getPage's file reading, its `body` and `excerpt` fields, and its null result for a missing file are left out. They need the file system and fixture files that are not part of this model.
- getPages is left out. It is a recursive directory walk with sorting and active-page marking over a global content directory.
- doSearch is left out. It scans the file corpus, and its expected result count depends on fixture files.
- Case mapping and whitespace are ASCII only: `A`-`Z`/`a`-`z`, and space, tab, newline, carriage return, vertical tab and form feed. Other Unicode letters and spaces are left as they are.
- SlugCodec.CleanString also splits at `_`, in both modes. The tests do not exercise an `_` in the input. Splitting there keeps every slug single-separated: if `_` were a word character, `a_ b` would give `a__b` with the flag set.
- SlugCodec.CleanString splits at `-` and collapses runs of it in dash mode as well, so `a - b` gives `a-b` and `-x-` gives `x`. The tests only show hyphens between words. A cleanString that collapses only whitespace and `/` would keep the hyphens of the input as they are.
- MetaBlock.MetaOfLinesFirstWins: no test fixes what happens when a key repeats. First-wins is the model's own choice.
- MetaBlock.LeadingBlock: a `/*` with no `*/` after it counts as no block, so processMeta gives the empty map and stripMeta keeps the text. No test fixes this case; ignoring an unclosed block is the model's own choice.
- MetaBlock.ParseLine: the line is split at its first `:` and the value is trimmed, so the space after the colon is optional. The tests only use `Key: Value` with one space. A line whose key has no word in it is ignored.
- SlugCodec.CleanString: every character that is not a separator is kept, lower-cased when it is an ASCII capital. So punctuation, digits and other letters reach the slug: `a.b!` gives `a.b!`. The tests only use letters. A slug limited to `a`-`z`, `0`-`9`, `-` and `_` would drop or replace such characters, and IsSlug states no such character class.
- MetaBlock.StripMeta: at most one newline is removed, and only a bare `\n` right after the close marker. So a block followed by `\n\n` leaves one `\n` at the front of the content, and a block followed by `\r\n` leaves the `\r\n`. ParseLine trims the `\r` of a CRLF line, so processMeta reads CRLF text, but stripMeta keeps the CRLF line break. The tests only use `\n`.
- VarSubstitution.ProcessVars: one left-to-right pass with no overlapping matches. The closing `%` of a replaced placeholder cannot open another, so `%a%b%` with variables `a` and `b` gives the value of `a` followed by `b%`. A variable whose name contains `%` is never replaced. The tests only show one placeholder.
- MetaBlock.ParseLine: a line `Key:` with nothing after the colon is an entry whose value is the empty string. The tests only show entries with a value.
- MetaBlock.ParseLine: the key goes through the whole of cleanString with underscores, not only lower-casing and turning spaces into `_`. So `-`, `/` and `_` in a key also become `_`, runs of them collapse, and separators at either end go: `Sort-Order: 1` gives the key `sort_order`. The tests only use keys of letters and single spaces.
- SlugCodec.SlugToTitle: a path that ends in `/`, such as `dir/`, has an empty last segment and gets the empty title. No test covers a trailing `/`.
- SlugCodec.SlugToTitle: whitespace, `-` and `_` all separate words, and a run of them becomes one space, so `a--b` gives `A B` rather than `A  B`. Separators at either end leave nothing, so `-hello-` gives `Hello`. A slugToTitle that replaced each `-` and `_` by its own space would keep the doubled and edge spaces. The tests only show single `-`s between words.
- SlugCodec.SlugToTitle: the extension is cut at the last `.` of the last segment, so `v1.2` gives `V1` and `.md` gives the empty title. The tests only show one `.md` extension after a name.
- RanetoTests.PageIdentityExample: it assumes the example page's metadata has no `title` entry. The fixture file that fixes this is not part of this model.
- The mocha/chai test framework and the assignments to `raneto.contentDir` are left out. They are test set-up, not behaviour.

=== FILE: meta_block.dfy ===
/**
 * The metadata block a document may open with: the open marker (slash, star),
 * lines of `Key: Value`, then the close marker (star, slash). `processMeta`
 * reads it into a map, `stripMeta` removes it.
 */
module MetaBlock {
  import opened Text
  import opened SlugCodec

  /** A close marker (star, slash) starts at index `i` of `s`. */
  predicate ClosesAt(s: string, i: int) {
    0 <= i && i + 1 < |s| && s[i] == '*' && s[i + 1] == '/'
  }

  /** `s` holds no close marker. */
  predicate NoClose(s: string) {
    forall i :: 0 <= i < |s| ==> !ClosesAt(s, i)
  }

  /** `s` begins with the open marker (slash, star). */
  predicate StartsWithOpen(s: string) {
    |s| >= 2 && s[0] == '/' && s[1] == '*'
  }

  /** The first close marker at or after index `from`. */
  function FindClose(s: string, from: nat): (r: Option<nat>)
    ensures r.Some? ==> from <= r.value && ClosesAt(s, r.value)
    ensures forall i :: from <= i && (r.None? || i < r.value) ==> !ClosesAt(s, i)
    decreases |s| - from
  {
    if from + 1 >= |s| then None
    else if ClosesAt(s, from) then Some(from)
    else FindClose(s, from + 1)
  }

  /** A leading block: the text between its markers, and the index just past its close marker. */
  datatype Block = Block(body: string, end: nat)

  /**
   * The block the text opens with: from the open marker at its very start to
   * the first close marker after it. None when the text does not start with
   * the open marker, or when no close marker follows.
   */
  function LeadingBlock(text: string): (r: Option<Block>)
    ensures r.Some? ==> StartsWithOpen(text)
    ensures r.Some? ==> r.value.end == |r.value.body| + 4 <= |text|
    ensures r.Some? ==> text == "/*" + r.value.body + "*/" + text[r.value.end..]
    ensures r.Some? ==> NoClose(r.value.body)
    ensures r.None? && StartsWithOpen(text) ==> forall i :: 2 <= i ==> !ClosesAt(text, i)
  {
    if !StartsWithOpen(text) then None
    else match FindClose(text, 2)
      case None => None
      case Some(i) =>
        var body := text[2..i];
        assert NoClose(body) by {
          forall j ensures !ClosesAt(body, j) {
            if ClosesAt(body, j) { assert ClosesAt(text, j + 2); }
          }
        }
        assert text == "/*" + body + "*/" + text[i + 2..] by {
          assert text == text[..2] + text[2..i] + text[i..i + 2] + text[i + 2..];
        }
        Some(Block(body, i + 2))
  }

  /** A block whose body has no close marker is found whatever follows it. */
  lemma LeadingBlockOf(body: string, rest: string)
    requires NoClose(body)
    ensures LeadingBlock("/*" + body + "*/" + rest) == Some(Block(body, |body| + 4))
  {
    var text := "/*" + body + "*/" + rest;
    var k := |body| + 2;
    assert ClosesAt(text, k);
    forall i | 2 <= i < k ensures !ClosesAt(text, i) {
      if i + 1 < k {
        assert text[i] == body[i - 2] && text[i + 1] == body[i - 1];
        assert !ClosesAt(body, i - 2);
      } else {
        assert text[i + 1] == '*';
      }
    }
    FindCloseIs(text, 2, k);
    assert text[2..k] == body;
  }

  lemma {:induction false} FindCloseIs(s: string, from: nat, k: nat)
    requires from <= k && ClosesAt(s, k)
    requires forall i :: from <= i < k ==> !ClosesAt(s, i)
    ensures FindClose(s, from) == Some(k)
    decreases k - from
  {
    if from < k {
      FindCloseIs(s, from + 1, k);
    }
  }

  // ---------------------------------------------------------------------------
  // Lines and entries

  predicate IsNewline(c: char) { c == '\n' }

  predicate IsColon(c: char) { c == ':' }

  /** The text split at every `\n`; the newlines themselves are dropped. */
  function Lines(s: string): (ls: seq<string>)
    ensures ls != []
    ensures forall i :: 0 <= i < |ls| ==> '\n' !in ls[i]
    ensures Join(ls, '\n') == s
    decreases |s|
  {
    var n := WordLength(s, IsNewline);
    assert '\n' !in s[..n] by {
      forall i | 0 <= i < n ensures s[..n][i] != '\n' {
        assert !IsNewline(s[i]);
      }
    }
    if n == |s| then
      assert s[..n] == s;
      [s]
    else
      var rest := Lines(s[n + 1..]);
      assert s == s[..n] + ['\n'] + s[n + 1..];
      [s[..n]] + rest
  }

  /** Splitting lines joined by `\n` gives the lines back. */
  lemma {:induction false} LinesOfJoin(ls: seq<string>)
    requires ls != []
    requires forall i :: 0 <= i < |ls| ==> '\n' !in ls[i]
    ensures Lines(Join(ls, '\n')) == ls
  {
    var s := Join(ls, '\n');
    var w := ls[0];
    assert forall i :: 0 <= i < |w| ==> !IsNewline(w[i]);
    if |ls| == 1 {
      WordLengthIs(s, IsNewline, |w|);
    } else {
      var rest := Join(ls[1..], '\n');
      assert s == w + ['\n'] + rest;
      WordLengthIs(s, IsNewline, |w|);
      assert s[..|w|] == w;
      assert s[|w| + 1..] == rest;
      LinesOfJoin(ls[1..]);
      assert ls == [w] + ls[1..];
    }
  }

  /** A metadata entry read from one line. */
  datatype Entry = Entry(key: string, value: string)

  /** No whitespace at either end. */
  predicate Trimmed(s: string) {
    s == [] || (!IsWhitespace(s[0]) && !IsWhitespace(s[|s| - 1]))
  }

  /**
   * One `Key: Value` line: the key is the text before the first `:`, written
   * as cleanString writes it with underscores; the value is the rest of the
   * line, trimmed. A line with no `:`, or whose key has no word in it, is not
   * an entry.
   */
  function ParseLine(line: string): (r: Option<Entry>)
    ensures r.Some? ==> r.value.key != [] && IsSlug(r.value.key, '_') && Trimmed(r.value.value)
    ensures ':' !in line ==> r.None?
  {
    var n := WordLength(line, IsColon);
    if n == |line| then
      assert forall i :: 0 <= i < |line| ==> !IsColon(line[i]);
      None
    else
      var key := CleanString(line[..n], true);
      if key == [] then None else Some(Entry(key, Trim(line[n + 1..])))
  }

  /** A line split at its first `:` gives the cleaned key and the trimmed rest. */
  lemma ParseLineOfEntry(key: string, value: string)
    requires ':' !in key
    ensures ParseLine(key + ":" + value)
         == if CleanString(key, true) == [] then None else Some(Entry(CleanString(key, true), Trim(value)))
  {
    var line := key + ":" + value;
    assert forall i :: 0 <= i < |key| ==> line[i] == key[i] && !IsColon(line[i]);
    WordLengthIs(line, IsColon, |key|);
    assert line[..|key|] == key;
    assert line[|key| + 1..] == value;
  }

  /** The line defines the key `k`. */
  predicate Defines(line: string, k: string) {
    ParseLine(line).Some? && ParseLine(line).value.key == k
  }

  /** What each line reads as. */
  function ParseLines(lines: seq<string>): (es: seq<Option<Entry>>)
    ensures |es| == |lines|
  {
    if lines == [] then [] else [ParseLine(lines[0])] + ParseLines(lines[1..])
  }

  lemma {:induction false} ParseLinesAt(lines: seq<string>, i: nat)
    requires i < |lines|
    ensures ParseLines(lines)[i] == ParseLine(lines[i])
  {
    if i > 0 {
      ParseLinesAt(lines[1..], i - 1);
    }
  }

  lemma ParseLinesCons(line: string, rest: seq<string>)
    ensures ParseLines([line] + rest) == [ParseLine(line)] + ParseLines(rest)
  {
    var lines := [line] + rest;
    assert lines[0] == line && lines[1..] == rest;
  }

  /** The key of an entry that can be read from a line, and its value. */
  predicate ValidEntry(e: Entry) {
    e.key != [] && IsSlug(e.key, '_') && Trimmed(e.value)
  }

  /** `es[i]` is an entry for the key `k`. */
  predicate HasKey(es: seq<Option<Entry>>, i: int, k: string) {
    0 <= i < |es| && es[i].Some? && es[i].value.key == k
  }

  /** The entries as a map; when a key repeats, the earliest entry wins. */
  function MetaOfEntries(es: seq<Option<Entry>>): map<string, string> {
    if es == [] then map[]
    else
      var m := MetaOfEntries(es[1..]);
      if es[0].Some? then m[es[0].value.key := es[0].value.value] else m
  }

  /** Entries of the shape a line gives make a map of that shape. */
  lemma {:induction false} MetaOfEntriesValid(es: seq<Option<Entry>>)
    requires forall i :: 0 <= i < |es| && es[i].Some? ==> ValidEntry(es[i].value)
    ensures forall k :: k in MetaOfEntries(es) ==> ValidEntry(Entry(k, MetaOfEntries(es)[k]))
  {
    if es != [] {
      MetaOfEntriesValid(es[1..]);
    }
  }

  /** A key is in the map exactly when some entry holds it. */
  lemma {:induction false} MetaOfEntriesKeys(es: seq<Option<Entry>>, k: string)
    ensures k in MetaOfEntries(es) <==> exists i :: HasKey(es, i, k)
  {
    if es != [] {
      var tail := es[1..];
      MetaOfEntriesKeys(tail, k);
      if es[0].Some? && es[0].value.key == k {
        assert HasKey(es, 0, k);
      }
      if exists i :: HasKey(tail, i, k) {
        var i :| HasKey(tail, i, k);
        assert HasKey(es, i + 1, k);
      }
      if exists i :: HasKey(es, i, k) {
        var i :| HasKey(es, i, k);
        if i > 0 {
          assert HasKey(tail, i - 1, k);
        }
      }
    }
  }

  /** The value of a key is the one of the earliest entry that holds it. */
  lemma {:induction false} MetaOfEntriesFirstWins(es: seq<Option<Entry>>, i: nat)
    requires i < |es| && es[i].Some?
    requires forall j :: 0 <= j < i ==> !HasKey(es, j, es[i].value.key)
    ensures es[i].value.key in MetaOfEntries(es)
    ensures MetaOfEntries(es)[es[i].value.key] == es[i].value.value
  {
    if i > 0 {
      var e := es[i].value;
      var tail := es[1..];
      assert tail[i - 1] == es[i];
      forall j | 0 <= j < i - 1 ensures !HasKey(tail, j, e.key) {
        assert !HasKey(es, j + 1, e.key);
      }
      MetaOfEntriesFirstWins(tail, i - 1);
      assert !HasKey(es, 0, e.key);
    }
  }

  /** The entries of the lines as a map; when a key repeats, the first line wins. */
  function MetaOfLines(lines: seq<string>): (m: map<string, string>)
    ensures forall k :: k in m ==> k != [] && IsSlug(k, '_') && Trimmed(m[k])
  {
    var es := ParseLines(lines);
    assert forall i :: 0 <= i < |es| && es[i].Some? ==> ValidEntry(es[i].value) by {
      forall i | 0 <= i < |es| && es[i].Some? ensures ValidEntry(es[i].value) {
        ParseLinesAt(lines, i);
      }
    }
    MetaOfEntriesValid(es);
    MetaOfEntries(es)
  }

  /** A line holding an entry puts it over the map of the lines after it. */
  lemma MetaOfEntryLine(line: string, rest: seq<string>, e: Entry)
    requires ParseLine(line) == Some(e)
    ensures MetaOfLines([line] + rest) == MetaOfLines(rest)[e.key := e.value]
  {
    ParseLinesCons(line, rest);
    var es := ParseLines([line] + rest);
    assert es[1..] == ParseLines(rest);
  }

  /** A line holding no entry adds nothing. */
  lemma MetaOfOtherLine(line: string, rest: seq<string>)
    requires ParseLine(line).None?
    ensures MetaOfLines([line] + rest) == MetaOfLines(rest)
  {
    ParseLinesCons(line, rest);
    var es := ParseLines([line] + rest);
    assert es[1..] == ParseLines(rest);
  }

  /** A key is in the map exactly when some line defines it. */
  lemma MetaOfLinesKeys(lines: seq<string>, k: string)
    ensures k in MetaOfLines(lines) <==> exists i :: 0 <= i < |lines| && Defines(lines[i], k)
  {
    var es := ParseLines(lines);
    MetaOfEntriesKeys(es, k);
    if exists i :: HasKey(es, i, k) {
      var i :| HasKey(es, i, k);
      ParseLinesAt(lines, i);
      assert Defines(lines[i], k);
    }
    if exists i :: 0 <= i < |lines| && Defines(lines[i], k) {
      var i :| 0 <= i < |lines| && Defines(lines[i], k);
      ParseLinesAt(lines, i);
      assert HasKey(es, i, k);
    }
  }

  /** The value of a key is the one given by the first line that defines it. */
  lemma MetaOfLinesFirstWins(lines: seq<string>, i: nat)
    requires i < |lines| && ParseLine(lines[i]).Some?
    requires forall j :: 0 <= j < i ==> !Defines(lines[j], ParseLine(lines[i]).value.key)
    ensures ParseLine(lines[i]).value.key in MetaOfLines(lines)
    ensures MetaOfLines(lines)[ParseLine(lines[i]).value.key] == ParseLine(lines[i]).value.value
  {
    var es := ParseLines(lines);
    var key := ParseLine(lines[i]).value.key;
    forall j | 0 <= j < i ensures !HasKey(es, j, key) {
      ParseLinesAt(lines, j);
      assert !Defines(lines[j], key);
    }
    ParseLinesAt(lines, i);
    MetaOfEntriesFirstWins(es, i);
  }

  // ---------------------------------------------------------------------------
  // processMeta and stripMeta

  /**
   * processMeta(text): the entries of the leading metadata block; empty when the
   * text does not open with one.
   */
  function ProcessMeta(text: string): (r: map<string, string>)
    ensures !StartsWithOpen(text) ==> r == map[]
    ensures forall k :: k in r ==> k != [] && IsSlug(k, '_') && Trimmed(r[k])
  {
    match LeadingBlock(text)
    case None => map[]
    case Some(b) => MetaOfLines(Lines(b.body))
  }

  /** Only the first block is read, whatever follows it. */
  lemma ProcessMetaOfBlock(body: string, rest: string)
    requires NoClose(body)
    ensures ProcessMeta("/*" + body + "*/" + rest) == MetaOfLines(Lines(body))
  {
    LeadingBlockOf(body, rest);
  }

  /**
   * stripMeta(text): the text without its leading metadata block and the one
   * newline after it; the text itself when it has no leading block.
   */
  function StripMeta(text: string): (r: string)
    ensures |r| <= |text| && r == text[|text| - |r|..]
    ensures LeadingBlock(text).None? ==> r == text
    ensures LeadingBlock(text).Some? ==> |r| + 4 <= |text|
  {
    match LeadingBlock(text)
    case None => text
    case Some(b) =>
      var rest := text[b.end..];
      if rest != [] && rest[0] == '\n' then rest[1..] else rest
  }

  /**
   * Exactly the first block and the newline after it go; the content after it,
   * including any later block written the same way, is kept as it is.
   */
  lemma StripMetaOfBlock(body: string, content: string)
    requires NoClose(body)
    ensures StripMeta("/*" + body + "*/\n" + content) == content
  {
    var text := "/*" + body + "*/\n" + content;
    assert text == "/*" + body + "*/" + ("\n" + content);
    LeadingBlockOf(body, "\n" + content);
    assert text[|body| + 4..] == "\n" + content;
  }

  /** The metadata is read entirely from the part that stripMeta removes. */
  lemma MetaLivesInStrippedPart(text: string)
    ensures ProcessMeta(text[..|text| - |StripMeta(text)|]) == ProcessMeta(text)
  {
    var head := text[..|text| - |StripMeta(text)|];
    match LeadingBlock(text)
    case None =>
      assert head == [];
    case Some(b) =>
      assert head == "/*" + b.body + "*/" + head[b.end..] by {
        assert head[..b.end] == text[..b.end];
      }
      ProcessMetaOfBlock(b.body, head[b.end..]);
      ProcessMetaOfBlock(b.body, text[b.end..]);
  }
}

=== FILE: page_loader.dfy ===
/**
 * The part of getPage that does not touch the file system: the slug and the
 * title a page gets from its file path and its metadata.
 */
module PageLoader {
  import opened Text
  import opened SlugCodec

  datatype PageId = PageId(slug: string, title: string)

  /** The path with the content directory taken off its front, when it is there. */
  function RelativePath(contentDir: string, filePath: string): string {
    if |contentDir| <= |filePath| && filePath[..|contentDir|] == contentDir
    then filePath[|contentDir|..]
    else filePath
  }

  /**
   * The slug and title of the page stored at `filePath`: the slug is the path
   * relative to the content directory without its extension; the title is the
   * `title` metadata entry when there is one, and otherwise slugToTitle of the
   * slug.
   */
  function PageIdentity(contentDir: string, filePath: string, meta: map<string, string>): (p: PageId)
    ensures |p.slug| <= |filePath|
    ensures "title" in meta ==> p.title == meta["title"]
    ensures "title" !in meta ==> p.title == SlugToTitle(p.slug)
    ensures "title" !in meta ==> '/' !in p.title && SingleSeparated(p.title, ' ', IsTitleSeparator)
  {
    var slug := StripExtension(RelativePath(contentDir, filePath));
    var title := if "title" in meta then meta["title"] else SlugToTitle(slug);
    PageId(slug, title)
  }

  /**
   * A file `name.ext` under the content directory gets the slug `name`, with
   * the sub-directories it sits in.
   */
  lemma PageSlugOfFile(contentDir: string, name: string, ext: string, meta: map<string, string>)
    requires '.' !in ext && '/' !in ext
    ensures PageIdentity(contentDir, contentDir + name + "." + ext, meta).slug == name
    ensures "title" !in meta ==> PageIdentity(contentDir, contentDir + name + "." + ext, meta).title == SlugToTitle(name)
  {
    var path := contentDir + name + "." + ext;
    assert path[..|contentDir|] == contentDir;
    assert RelativePath(contentDir, path) == name + ("." + ext);
    StripExtensionAppend(name, ext);
  }

  /**
   * A page without a `title` entry, stored as `dir/w1-w2-...-wn.ext` under the
   * content directory, gets the title `W1 W2 ... Wn`: the words of its file
   * name, each capitalised, whatever directory it sits in.
   */
  lemma PageTitleOfFile(contentDir: string, dir: string, ws: seq<string>, ext: string, meta: map<string, string>)
    requires '.' !in ext && '/' !in ext && "title" !in meta
    requires forall i :: 0 <= i < |ws| ==> IsWord(ws[i], IsTitleSeparator)
    requires forall i, j :: 0 <= i < |ws| && 0 <= j < |ws[i]| ==> ws[i][j] != '/' && ws[i][j] != '.'
    ensures PageIdentity(contentDir, contentDir + dir + "/" + Join(ws, '-') + "." + ext, meta).title
         == Join(CapitalizeEach(ws), ' ')
  {
    var slug := Join(ws, '-');
    var name := dir + "/" + slug;
    assert contentDir + dir + "/" + slug == contentDir + name;
    calc {
      PageIdentity(contentDir, contentDir + name + "." + ext, meta).title;
      { PageSlugOfFile(contentDir, name, ext, meta); }
      SlugToTitle(name);
      { SlugToTitleLastSegment(dir, slug); }
      SlugToTitle(slug);
      { SlugToTitleOfWords(ws, '-'); }
      Join(CapitalizeEach(ws), ' ');
    }
  }
}

=== FILE: raneto_tests.dfy ===
/**
 * The examples of the Raneto test suite, each proved of the model. Every
 * example takes its input as a parameter fixed by a `requires` and follows
 * from a lemma over arbitrary words; the lemmas named `...Shape` only spell a
 * concrete string as the pieces those lemmas speak of.
 */
module RanetoTests {
  import opened Text
  import opened SlugCodec
  import opened MetaBlock
  import opened VarSubstitution
  import opened PageLoader

  // ---------------------------------------------------------------------------
  // cleanString

  /** A non-empty word with no separator and no upper-case letter in it. */
  predicate LowerWord(w: string) {
    w != [] && forall j :: 0 <= j < |w| ==> !IsUpper(w[j]) && !IsSlugSeparator(w[j])
  }

  predicate LowerWords(ws: seq<string>) {
    forall i :: 0 <= i < |ws| ==> LowerWord(ws[i])
  }

  lemma JoinTwo(a: string, b: string, c: char)
    ensures Join([a, b], c) == a + [c] + b
  {
    assert [a, b][1..] == [b];
  }

  lemma JoinThree(a: string, b: string, d: string, c: char)
    ensures Join([a, b, d], c) == a + [c] + b + [c] + d
  {
    assert [a, b, d][1..] == [b, d];
    JoinTwo(b, d, c);
  }

  /** Lower-case words joined by a separator are joined by the slug separator instead. */
  lemma CleanStringOfLowerWords(text: string, ws: seq<string>, c: char, useUnderscore: bool)
    requires IsSlugSeparator(c) && LowerWords(ws)
    requires text == Join(ws, c)
    ensures CleanString(text, useUnderscore) == Join(ws, SeparatorFor(useUnderscore))
  {
    LowerEachOfLowercase(ws);
    CleanStringOfWords(ws, c, useUnderscore);
  }

  /** Three lower-case words with spaces between them, and maybe one after them. */
  lemma CleanStringOfSpacedWords(text: string, a: string, b: string, d: string, tail: string, useUnderscore: bool)
    requires LowerWord(a) && LowerWord(b) && LowerWord(d)
    requires tail == [] || tail == " "
    requires text == a + " " + b + " " + d + tail
    ensures var s := SeparatorFor(useUnderscore); CleanString(text, useUnderscore) == a + [s] + b + [s] + d
  {
    var ws := [a, b, d];
    var s := SeparatorFor(useUnderscore);
    JoinThree(a, b, d, ' ');
    JoinThree(a, b, d, s);
    assert LowerWords(ws);
    CleanStringOfLowerWords(Join(ws, ' '), ws, ' ', useUnderscore);
    if tail == " " {
      assert text == Join(ws, ' ') + [' '];
      CleanStringDropsEdgeSeparators(' ', Join(ws, ' '), useUnderscore);
    } else {
      assert text == Join(ws, ' ');
    }
  }

  /**
   * A path `/a/b-d/e/`: the leading and trailing `/` go, and the `/` and `-`
   * inside all become the one slug separator.
   */
  lemma CleanStringOfPath(text: string, a: string, b: string, d: string, e: string, useUnderscore: bool)
    requires LowerWord(a) && LowerWord(b) && LowerWord(d) && LowerWord(e)
    requires text == "/" + a + "/" + b + "-" + d + "/" + e + "/"
    ensures var s := SeparatorFor(useUnderscore); CleanString(text, useUnderscore) == (a + [s] + b) + [s] + (d + [s] + e)
  {
    var s := SeparatorFor(useUnderscore);
    var left, right := [a, b], [d, e];
    var p, q := Join(left, '/'), Join(right, '/');
    JoinTwo(a, b, '/');
    JoinTwo(d, e, '/');
    assert LowerWords(left) && LowerWords(right);
    var inner := p + ['-'] + q;
    assert text == ['/'] + inner + ['/'];
    CleanStringOfLowerWords(p, left, '/', useUnderscore);
    CleanStringOfLowerWords(q, right, '/', useUnderscore);
    JoinTwo(a, b, s);
    JoinTwo(d, e, s);
    CleanStringSplit(p, '-', q, useUnderscore);
    CleanStringDropsEdgeSeparators('/', inner, useUnderscore);
    CleanStringDropsEdgeSeparators('/', ['/'] + inner, useUnderscore);
    assert CleanString(text, useUnderscore) == CleanString(inner, useUnderscore);
  }

  /** Two words with one separator between them: each is lower-cased, and the separator becomes the slug separator. */
  lemma CleanStringOfTwoWords(text: string, a: string, b: string, lowA: string, lowB: string, c: char, useUnderscore: bool)
    requires IsSlugSeparator(c) && IsWord(a, IsSlugSeparator) && IsWord(b, IsSlugSeparator)
    requires Lower(a) == lowA && Lower(b) == lowB
    requires text == a + [c] + b
    ensures CleanString(text, useUnderscore) == lowA + [SeparatorFor(useUnderscore)] + lowB
  {
    var ws := [a, b];
    JoinTwo(a, b, c);
    assert forall i :: 0 <= i < |ws| ==> IsWord(ws[i], IsSlugSeparator);
    CleanStringOfWords(ws, c, useUnderscore);
    assert LowerEach(ws) == [lowA, lowB];
    JoinTwo(lowA, lowB, SeparatorFor(useUnderscore));
  }

  lemma HelloWorldText(text: string)
    requires text == "Hello World"
    ensures text == "Hello" + " " + "World"
    ensures "hello-world" == "hello" + "-" + "world"
  {
  }

  lemma HelloWorldLower()
    ensures IsWord("Hello", IsSlugSeparator) && IsWord("World", IsSlugSeparator)
    ensures Lower("Hello") == "hello" && Lower("World") == "world"
  {
  }

  lemma CleanStringHelloWorld(text: string)
    requires text == "Hello World"
    ensures CleanString(text, false) == "hello-world"
  {
    HelloWorldText(text);
    HelloWorldLower();
    CleanStringOfTwoWords(text, "Hello", "World", "hello", "world", ' ', false);
  }

  lemma PathShape(text: string)
    requires text == "/some/direcoty-example/hello/"
    ensures text == "/" + "some" + "/" + "direcoty" + "-" + "example" + "/" + "hello" + "/"
  {
    // One piece at a time, from the right.
    assert text == "/some/direcoty-example/hello" + "/";
    assert "/some/direcoty-example/hello" == "/some/direcoty-example/" + "hello";
    assert "/some/direcoty-example/" == "/some/direcoty-example" + "/";
    assert "/some/direcoty-example" == "/some/direcoty-" + "example";
    assert "/some/direcoty-" == "/some/direcoty" + "-";
    assert "/some/direcoty" == "/some/" + "direcoty";
    assert "/some/" == "/some" + "/";
    assert "/some" == "/" + "some";
  }

  lemma PathResult()
    ensures "some-direcoty-example-hello" == ("some" + "-" + "direcoty") + "-" + ("example" + "-" + "hello")
  {
  }

  lemma PathWords()
    ensures LowerWord("some") && LowerWord("direcoty") && LowerWord("example") && LowerWord("hello")
  {
  }

  lemma CleanStringPath(text: string)
    requires text == "/some/direcoty-example/hello/"
    ensures CleanString(text, false) == "some-direcoty-example-hello"
  {
    PathWords();
    PathShape(text);
    PathResult();
    CleanStringOfPath(text, "some", "direcoty", "example", "hello", false);
  }

  lemma TrailingSpaceShape(text: string)
    requires text == "with trailing space "
    ensures text == "with" + " " + "trailing" + " " + "space" + " "
  {
  }

  lemma TrailingSpaceResult()
    ensures "with-trailing-space" == "with" + "-" + "trailing" + "-" + "space"
  {
  }

  lemma TrailingSpaceWords()
    ensures LowerWord("with") && LowerWord("trailing") && LowerWord("space")
  {
  }

  lemma CleanStringTrailingSpace(text: string)
    requires text == "with trailing space "
    ensures CleanString(text, false) == "with-trailing-space"
  {
    TrailingSpaceWords();
    TrailingSpaceShape(text);
    TrailingSpaceResult();
    CleanStringOfSpacedWords(text, "with", "trailing", "space", " ", false);
  }

  lemma UnderscoresShape(text: string)
    requires text == "also does underscores"
    ensures text == "also" + " " + "does" + " " + "underscores" + []
  {
  }

  lemma UnderscoresResult()
    ensures "also_does_underscores" == "also" + "_" + "does" + "_" + "underscores"
  {
  }

  lemma UnderscoresWords()
    ensures LowerWord("also") && LowerWord("does") && LowerWord("underscores")
  {
  }

  lemma CleanStringAlsoDoesUnderscores(text: string)
    requires text == "also does underscores"
    ensures CleanString(text, true) == "also_does_underscores"
  {
    UnderscoresWords();
    UnderscoresShape(text);
    UnderscoresResult();
    CleanStringOfSpacedWords(text, "also", "does", "underscores", [], true);
  }

  lemma UnderscorePathShape(text: string)
    requires text == "/some/direcoty-example/underscores/"
    ensures text == "/" + "some" + "/" + "direcoty" + "-" + "example" + "/" + "underscores" + "/"
  {
    // One piece at a time, from the right.
    assert text == "/some/direcoty-example/underscores" + "/";
    assert "/some/direcoty-example/underscores" == "/some/direcoty-example/" + "underscores";
    assert "/some/direcoty-example/" == "/some/direcoty-example" + "/";
    assert "/some/direcoty-example" == "/some/direcoty-" + "example";
    assert "/some/direcoty-" == "/some/direcoty" + "-";
    assert "/some/direcoty" == "/some/" + "direcoty";
    assert "/some/" == "/some" + "/";
    assert "/some" == "/" + "some";
  }

  lemma UnderscorePathResult()
    ensures "some_direcoty_example_underscores" == ("some" + "_" + "direcoty") + "_" + ("example" + "_" + "underscores")
  {
  }

  lemma UnderscorePathWords()
    ensures LowerWord("some") && LowerWord("direcoty") && LowerWord("example") && LowerWord("underscores")
  {
  }

  lemma CleanStringUnderscorePath(text: string)
    requires text == "/some/direcoty-example/underscores/"
    ensures CleanString(text, true) == "some_direcoty_example_underscores"
  {
    UnderscorePathWords();
    UnderscorePathShape(text);
    UnderscorePathResult();
    CleanStringOfPath(text, "some", "direcoty", "example", "underscores", true);
  }

  // ---------------------------------------------------------------------------
  // slugToTitle

  /** A word that can appear in a file name and has no title separator in it. */
  predicate NameWord(w: string) {
    IsWord(w, IsTitleSeparator) && '/' !in w && '.' !in w
  }

  /** A dashed slug of words becomes the capitalised words with spaces between them. */
  lemma SlugToTitleOfDashedWords(slug: string, ws: seq<string>)
    requires forall i :: 0 <= i < |ws| ==> NameWord(ws[i])
    requires slug == Join(ws, '-')
    ensures SlugToTitle(slug) == Join(CapitalizeEach(ws), ' ')
  {
    forall i, j | 0 <= i < |ws| && 0 <= j < |ws[i]| ensures ws[i][j] != '/' && ws[i][j] != '.' {
      assert ws[i][j] in ws[i];
    }
    SlugToTitleOfWords(ws, '-');
  }

  lemma SlugToTitleOfTwoWords(slug: string, a: string, b: string, capA: string, capB: string)
    requires NameWord(a) && NameWord(b)
    requires Capitalize(a) == capA && Capitalize(b) == capB
    requires slug == a + "-" + b
    ensures SlugToTitle(slug) == capA + " " + capB
  {
    var ws := [a, b];
    JoinTwo(a, b, '-');
    assert forall i :: 0 <= i < |ws| ==> NameWord(ws[i]);
    SlugToTitleOfDashedWords(slug, ws);
    CapitalizeTwo(a, b);
    JoinTwo(capA, capB, ' ');
  }

  lemma SlugToTitleOfThreeWords(slug: string, a: string, b: string, d: string, capA: string, capB: string, capD: string)
    requires NameWord(a) && NameWord(b) && NameWord(d)
    requires Capitalize(a) == capA && Capitalize(b) == capB && Capitalize(d) == capD
    requires slug == a + "-" + b + "-" + d
    ensures SlugToTitle(slug) == capA + " " + capB + " " + capD
  {
    var ws := [a, b, d];
    JoinThree(a, b, d, '-');
    assert forall i :: 0 <= i < |ws| ==> NameWord(ws[i]);
    SlugToTitleOfDashedWords(slug, ws);
    CapitalizeThree(a, b, d);
    JoinThree(capA, capB, capD, ' ');
  }

  lemma CapitalizeTwo(a: string, b: string)
    ensures CapitalizeEach([a, b]) == [Capitalize(a), Capitalize(b)]
  {
    var caps := CapitalizeEach([a, b]);
    assert caps[0] == Capitalize(a) && caps[1] == Capitalize(b);
  }

  lemma CapitalizeThree(a: string, b: string, d: string)
    ensures CapitalizeEach([a, b, d]) == [Capitalize(a), Capitalize(b), Capitalize(d)]
  {
    var caps := CapitalizeEach([a, b, d]);
    assert caps[0] == Capitalize(a) && caps[1] == Capitalize(b) && caps[2] == Capitalize(d);
  }

  // The capitalised forms of the words in the examples, one fact per lemma.

  lemma CapitalizeHello()
    ensures Capitalize("hello") == "Hello"
  {
  }

  lemma CapitalizeWorld()
    ensures Capitalize("world") == "World"
  {
  }

  lemma CapitalizeSome()
    ensures Capitalize("some") == "Some"
  {
  }

  lemma CapitalizeExample()
    ensures Capitalize("example") == "Example"
  {
  }

  lemma CapitalizeFile()
    ensures Capitalize("file") == "File"
  {
  }

  lemma CapitalizePage()
    ensures Capitalize("page") == "Page"
  {
  }

  lemma HelloWorldShape(slug: string)
    requires slug == "hello-world"
    ensures slug == "hello" + "-" + "world"
    ensures "Hello World" == "Hello" + " " + "World"
  {
  }

  lemma HelloWorldWords()
    ensures NameWord("hello") && NameWord("world")
  {
  }

  lemma SlugToTitleHelloWorld(slug: string)
    requires slug == "hello-world"
    ensures SlugToTitle(slug) == "Hello World"
  {
    HelloWorldShape(slug);
    HelloWorldWords();
    CapitalizeHello();
    CapitalizeWorld();
    SlugToTitleOfTwoWords(slug, "hello", "world", "Hello", "World");
  }

  lemma FilePathShape(path: string)
    requires path == "dir/some-example-file.md"
    ensures path == "dir" + "/" + (("some" + "-" + "example" + "-" + "file") + "." + "md")
    ensures "Some Example File" == "Some" + " " + "Example" + " " + "File"
  {
  }

  lemma FilePathWords()
    ensures NameWord("some") && NameWord("example") && NameWord("file")
    ensures '.' !in "some" + "-" + "example" + "-" + "file"
  {
  }

  lemma SlugToTitleFilePath(path: string)
    requires path == "dir/some-example-file.md"
    ensures SlugToTitle(path) == "Some Example File"
  {
    FilePathShape(path);
    FilePathWords();
    CapitalizeSome();
    CapitalizeExample();
    CapitalizeFile();
    var name := "some" + "-" + "example" + "-" + "file";
    SlugToTitleLastSegment("dir", name + "." + "md");
    SlugToTitleDropsExtension(name, "md");
    SlugToTitleOfThreeWords(name, "some", "example", "file", "Some", "Example", "File");
  }

  // ---------------------------------------------------------------------------
  // processMeta and stripMeta

  /** A line `Key: value` whose key cleans to `k` is the entry from `k` to the value. */
  lemma EntryLine(line: string, key: string, value: string, k: string)
    requires ':' !in key && CleanString(key, true) == k && k != []
    requires value == [] || (!IsWhitespace(value[0]) && !IsWhitespace(value[|value| - 1]))
    requires line == key + ":" + (" " + value)
    ensures ParseLine(line) == Some(Entry(k, value))
  {
    ParseLineOfEntry(key, " " + value);
    TrimPadded(" ", value);
  }

  /** A one-word key is cleaned to its lower-case form. */
  lemma OneWordKey(key: string, k: string)
    requires IsWord(key, IsSlugSeparator) && Lower(key) == k
    ensures CleanString(key, true) == k
  {
    CleanStringWord(key, true);
  }

  /** A line of the block, with nothing in it that ends the block or the line. */
  predicate BlockLine(l: string) {
    '\n' !in l && '*' !in l
  }

  /**
   * A block of four lines opened and closed on lines of its own: its body is
   * the four lines between two empty ones, and the block is found.
   */
  lemma FourLineBlock(text: string, l1: string, l2: string, l3: string, l4: string, tail: string, rest: string)
    requires BlockLine(l1) && BlockLine(l2) && BlockLine(l3) && BlockLine(l4)
    requires text == "/*\n" + (l1 + "\n") + (l2 + "\n") + (l3 + "\n") + (l4 + "\n") + tail
    requires tail == "*/" + rest
    ensures var ls := ["", l1, l2, l3, l4, ""];
      var body := Join(ls, '\n');
      && text == "/*" + body + "*/" + rest
      && NoClose(body)
      && Lines(body) == ls
  {
    var ls := ["", l1, l2, l3, l4, ""];
    var body := Join(ls, '\n');
    BlockBody(l1, l2, l3, l4);
    assert text == "/*" + body + "*/" + rest;
    assert forall i :: 0 <= i < |ls| ==> BlockLine(ls[i]);
    JoinKeeps(ls, '\n', c => c != '*');
    LinesOfJoin(ls);
  }

  lemma BlockBody(l1: string, l2: string, l3: string, l4: string)
    ensures Join(["", l1, l2, l3, l4, ""], '\n') == "\n" + (l1 + "\n") + (l2 + "\n") + (l3 + "\n") + (l4 + "\n")
  {
    var ls := ["", l1, l2, l3, l4, ""];
    assert Join(ls[5..], '\n') == "";
    assert Join(ls[4..], '\n') == l4 + "\n" by { assert ls[4..][1..] == ls[5..]; }
    assert Join(ls[3..], '\n') == l3 + "\n" + (l4 + "\n") by { assert ls[3..][1..] == ls[4..]; }
    assert Join(ls[2..], '\n') == l2 + "\n" + ((l3 + "\n") + (l4 + "\n")) by { assert ls[2..][1..] == ls[3..]; }
    assert Join(ls[1..], '\n') == l1 + "\n" + ((l2 + "\n") + (l3 + "\n") + (l4 + "\n")) by { assert ls[1..][1..] == ls[2..]; }
  }

  /** The map of a block of four entries between two empty lines. */
  lemma FourEntries(l1: string, l2: string, l3: string, l4: string, e1: Entry, e2: Entry, e3: Entry, e4: Entry)
    requires ParseLine("").None?
    requires ParseLine(l1) == Some(e1) && ParseLine(l2) == Some(e2)
    requires ParseLine(l3) == Some(e3) && ParseLine(l4) == Some(e4)
    ensures MetaOfLines(["", l1, l2, l3, l4, ""])
         == map[e4.key := e4.value][e3.key := e3.value][e2.key := e2.value][e1.key := e1.value]
  {
    var t4 := [""];
    var t3 := [l4] + t4;
    var t2 := [l3] + t3;
    var t1 := [l2] + t2;
    var t0 := [l1] + t1;
    ListOfSix("", l1, l2, l3, l4, "");
    MetaOfOtherLine("", t0);
    MetaOfEntryLine(l1, t1, e1);
    MetaOfEntryLine(l2, t2, e2);
    MetaOfEntryLine(l3, t3, e3);
    MetaOfEntryLine(l4, t4, e4);
    MetaOfOtherLine("", []);
    assert [""] + [] == t4;
  }

  lemma ListOfSix(a: string, b: string, c: string, d: string, e: string, f: string)
    ensures [a, b, c, d, e, f] == [a] + ([b] + ([c] + ([d] + ([e] + [f]))))
  {
  }

  lemma TitleLineFacts(line: string)
    requires line == "Title: This is a title"
    ensures line == "Title" + ":" + (" " + "This is a title")
  {
  }

  lemma TitleLineKey(key: string, value: string)
    requires key == "Title" && value == "This is a title"
    ensures ':' !in key && IsWord(key, IsSlugSeparator) && Lower(key) == "title"
    ensures !IsWhitespace(value[0]) && !IsWhitespace(value[|value| - 1])
  {
  }

  lemma TitleLine(line: string)
    requires line == "Title: This is a title"
    ensures ParseLine(line) == Some(Entry("title", "This is a title"))
  {
    TitleLineFacts(line);
    TitleLineKey("Title", "This is a title");
    OneWordKey("Title", "title");
    EntryLine(line, "Title", "This is a title", "title");
  }

  lemma DescriptionLineFacts(line: string)
    requires line == "Description: This is a description"
    ensures line == "Description" + ":" + (" " + "This is a description")
  {
  }

  lemma DescriptionLineKey(key: string, value: string)
    requires key == "Description" && value == "This is a description"
    ensures ':' !in key && IsWord(key, IsSlugSeparator) && Lower(key) == "description"
    ensures !IsWhitespace(value[0]) && !IsWhitespace(value[|value| - 1])
  {
  }

  lemma DescriptionLine(line: string)
    requires line == "Description: This is a description"
    ensures ParseLine(line) == Some(Entry("description", "This is a description"))
  {
    DescriptionLineFacts(line);
    DescriptionLineKey("Description", "This is a description");
    OneWordKey("Description", "description");
    EntryLine(line, "Description", "This is a description", "description");
  }

  lemma SortLineFacts(line: string)
    requires line == "Sort: 4"
    ensures line == "Sort" + ":" + (" " + "4")
  {
  }

  lemma SortLineKey(key: string, value: string)
    requires key == "Sort" && value == "4"
    ensures ':' !in key && IsWord(key, IsSlugSeparator) && Lower(key) == "sort"
    ensures !IsWhitespace(value[0]) && !IsWhitespace(value[|value| - 1])
  {
  }

  lemma SortLine(line: string)
    requires line == "Sort: 4"
    ensures ParseLine(line) == Some(Entry("sort", "4"))
  {
    SortLineFacts(line);
    SortLineKey("Sort", "4");
    OneWordKey("Sort", "sort");
    EntryLine(line, "Sort", "4", "sort");
  }

  lemma MultiWordLineFacts(line: string)
    requires line == "Multi word: Value"
    ensures line == "Multi word" + ":" + (" " + "Value")
    ensures ':' !in "Multi word" && !IsWhitespace("Value"[0]) && !IsWhitespace("Value"[4])
    ensures "Multi word" == Join(["Multi", "word"], ' ')
    ensures Join(LowerEach(["Multi", "word"]), '_') == "multi_word"
  {
    assert Lower("Multi") == "multi" && Lower("word") == "word";
    assert LowerEach(["Multi", "word"]) == ["multi", "word"];
  }

  lemma MultiWordLine(line: string)
    requires line == "Multi word: Value"
    ensures ParseLine(line) == Some(Entry("multi_word", "Value"))
  {
    MultiWordLineFacts(line);
    CleanStringOfWords(["Multi", "word"], ' ', true);
    EntryLine(line, "Multi word", "Value", "multi_word");
  }

  /** The lines of the examples' metadata block, each with its newline. */
  lemma ExampleLineEnds()
    ensures "Title: This is a title\n" == "Title: This is a title" + "\n"
    ensures "Description: This is a description\n" == "Description: This is a description" + "\n"
    ensures "Sort: 4\n" == "Sort: 4" + "\n"
    ensures "Multi word: Value\n" == "Multi word: Value" + "\n"
  {
  }

  lemma TitleBlockLine(l: string)
    requires l == "Title: This is a title"
    ensures BlockLine(l)
  {
  }

  lemma DescriptionBlockLine(l: string)
    requires l == "Description: This is a description"
    ensures BlockLine(l)
  {
  }

  lemma SortBlockLine(l: string)
    requires l == "Sort: 4"
    ensures BlockLine(l)
  {
  }

  lemma MultiWordBlockLine(l: string)
    requires l == "Multi word: Value"
    ensures BlockLine(l)
  {
  }

  lemma EmptyLine(line: string)
    requires line == []
    ensures ParseLine(line).None?
  {
  }

  lemma ProcessMetaExample(text: string)
    requires text == "/*\n" + "Title: This is a title\n" + "Description: This is a description\n"
                   + "Sort: 4\n" + "Multi word: Value\n" + "*/\n"
    ensures ProcessMeta(text) == map["title" := "This is a title", "description" := "This is a description",
                                     "sort" := "4", "multi_word" := "Value"]
  {
    var l1, l2, l3, l4 := "Title: This is a title", "Description: This is a description", "Sort: 4", "Multi word: Value";
    ExampleLineEnds();
    TitleBlockLine(l1);
    DescriptionBlockLine(l2);
    SortBlockLine(l3);
    MultiWordBlockLine(l4);
    assert "*/\n" == "*/" + "\n";
    FourLineBlock(text, l1, l2, l3, l4, "*/\n", "\n");
    var ls := ["", l1, l2, l3, l4, ""];
    ProcessMetaOfBlock(Join(ls, '\n'), "\n");
    ExampleMeta(l1, l2, l3, l4);
  }

  /** The map read from the lines of the examples' metadata block. */
  lemma ExampleMeta(l1: string, l2: string, l3: string, l4: string)
    requires l1 == "Title: This is a title" && l2 == "Description: This is a description"
    requires l3 == "Sort: 4" && l4 == "Multi word: Value"
    ensures MetaOfLines(["", l1, l2, l3, l4, ""]) == map["title" := "This is a title", "description" := "This is a description",
                                   "sort" := "4", "multi_word" := "Value"]
  {
    TitleLine(l1);
    DescriptionLine(l2);
    SortLine(l3);
    MultiWordLine(l4);
    EmptyLine("");
    var e1, e2 := Entry("title", "This is a title"), Entry("description", "This is a description");
    var e3, e4 := Entry("sort", "4"), Entry("multi_word", "Value");
    FourEntries(l1, l2, l3, l4, e1, e2, e3, e4);
    ExampleMap(e1, e2, e3, e4);
  }

  lemma ExampleMap(e1: Entry, e2: Entry, e3: Entry, e4: Entry)
    requires e1 == Entry("title", "This is a title") && e2 == Entry("description", "This is a description")
    requires e3 == Entry("sort", "4") && e4 == Entry("multi_word", "Value")
    ensures map[e4.key := e4.value][e3.key := e3.value][e2.key := e2.value][e1.key := e1.value]
         == map["title" := "This is a title", "description" := "This is a description", "sort" := "4", "multi_word" := "Value"]
  {
  }

  lemma ProcessMetaNoMeta(text: string)
    requires text == "no meta here"
    ensures ProcessMeta(text) == map[]
  {
    assert !StartsWithOpen(text);
  }

  /** A document made of the examples' block and then `content` loses exactly the block. */
  lemma StripExampleBlock(text: string, tail: string, content: string)
    requires text == "/*\n" + "Title: This is a title\n" + "Description: This is a description\n"
                   + "Sort: 4\n" + "Multi word: Value\n" + tail
    requires tail == "*/" + ("\n" + content)
    ensures StripMeta(text) == content
  {
    var l1, l2, l3, l4 := "Title: This is a title", "Description: This is a description", "Sort: 4", "Multi word: Value";
    ExampleLineEnds();
    TitleBlockLine(l1);
    DescriptionBlockLine(l2);
    SortBlockLine(l3);
    MultiWordBlockLine(l4);
    FourLineBlock(text, l1, l2, l3, l4, tail, "\n" + content);
    var body := Join(["", l1, l2, l3, l4, ""], '\n');
    assert text == "/*" + body + "*/\n" + content;
    StripMetaOfBlock(body, content);
  }

  lemma StripMetaExample(text: string)
    requires text == "/*\n" + "Title: This is a title\n" + "Description: This is a description\n"
                   + "Sort: 4\n" + "Multi word: Value\n" + "*/\nThis is the content"
    ensures StripMeta(text) == "This is the content"
  {
    assert "*/\nThis is the content" == "*/" + ("\n" + "This is the content");
    StripExampleBlock(text, "*/\nThis is the content", "This is the content");
  }

  lemma StripMetaNoMeta(text: string)
    requires text == "This is the content"
    ensures StripMeta(text) == "This is the content"
  {
    assert !StartsWithOpen(text);
  }

  lemma FirstBlockOnlyHead(head: string)
    requires head == "*/\nThis is the content/*\n"
    ensures head == "*/" + ("\n" + "This is the content/*\n")
  {
  }

  lemma CloseThenContent(head: string, first: string, x: string, y: string)
    requires head == "*/" + ("\n" + first)
    ensures head + x + y == "*/" + ("\n" + (first + x + y))
  {
  }

  lemma StripMetaFirstBlockOnly(text: string)
    requires text == "/*\n" + "Title: This is a title\n" + "Description: This is a description\n"
                   + "Sort: 4\n" + "Multi word: Value\n"
                   + ("*/\nThis is the content/*\n" + "Title: This is a title\n" + "*/")
    ensures StripMeta(text) == "This is the content/*\n" + "Title: This is a title\n" + "*/"
  {
    var content := "This is the content/*\n" + "Title: This is a title\n" + "*/";
    var tail := "*/\nThis is the content/*\n" + "Title: This is a title\n" + "*/";
    FirstBlockOnlyHead("*/\nThis is the content/*\n");
    CloseThenContent("*/\nThis is the content/*\n", "This is the content/*\n", "Title: This is a title\n", "*/");
    StripExampleBlock(text, tail, content);
  }

  // ---------------------------------------------------------------------------
  // processVars

  /** Text around one placeholder for a variable. */
  lemma ProcessVarsOnePlaceholder(text: string, before: string, name: string, after: string, vars: map<string, string>)
    requires '%' !in before && '%' !in name && '%' !in after && name in vars
    requires text == before + "%" + name + "%" + after
    ensures ProcessVars(text, vars) == before + vars[name] + after
  {
    var placeholder := "%" + name + "%" + after;
    assert text == before + placeholder;
    var value := vars[name];
    calc {
      ProcessVars(text, vars);
      ProcessVars(before + placeholder, vars);
      { ProcessVarsPlain(before, placeholder, vars); }
      before + ProcessVars(placeholder, vars);
      { ProcessVarsReplaces(name, after, vars); }
      before + (value + ProcessVars(after, vars));
      { ProcessVarsPlain(after, [], vars); assert after + [] == after; }
      before + (value + after);
      before + value + after;
    }
  }

  lemma ProcessVarsShape(text: string)
    requires text == "This is some Markdown with a %base_url%."
    ensures text == "This is some Markdown with a " + "%" + "base_url" + "%" + "."
    ensures "This is some Markdown with a /base/url." == "This is some Markdown with a " + "/base/url" + "."
    ensures '%' !in "This is some Markdown with a " && '%' !in "base_url"
  {
  }

  lemma ProcessVarsExample(text: string, vars: map<string, string>)
    requires text == "This is some Markdown with a %base_url%."
    requires vars == map["base_url" := "/base/url"]
    ensures ProcessVars(text, vars) == "This is some Markdown with a /base/url."
  {
    ProcessVarsShape(text);
    ProcessVarsOnePlaceholder(text, "This is some Markdown with a ", "base_url", ".", vars);
  }

  // ---------------------------------------------------------------------------
  // getPage

  lemma PageShape(contentDir: string, path: string, slug: string)
    requires path == contentDir + "example-page.md" && slug == "example-page"
    ensures path == contentDir + slug + "." + "md"
    ensures slug == "example" + "-" + "page"
  {
    assert "example-page.md" == "example-page" + "." + "md";
  }

  lemma PageWords()
    ensures NameWord("example") && NameWord("page")
  {
  }

  lemma PageTitle()
    ensures "Example Page" == "Example" + " " + "Page"
  {
  }

  lemma PageIdentityExample(contentDir: string, meta: map<string, string>)
    requires "title" !in meta
    ensures PageIdentity(contentDir, contentDir + "example-page.md", meta) == PageId("example-page", "Example Page")
  {
    var path, slug := contentDir + "example-page.md", "example-page";
    PageShape(contentDir, path, slug);
    PageWords();
    PageTitle();
    CapitalizeExample();
    CapitalizePage();
    PageSlugOfFile(contentDir, slug, "md", meta);
    SlugToTitleOfTwoWords(slug, "example", "page", "Example", "Page");
  }
}

=== FILE: slug_codec.dfy ===
/**
 * Conversion between titles or file paths and URL-safe slugs: `cleanString`
 * (title or path to slug) and `slugToTitle` (slug or file path to title).
 */
module SlugCodec {
  import opened Text

  /** Characters that `cleanString` treats as word separators. */
  predicate IsSlugSeparator(c: char) {
    IsWhitespace(c) || c == '/' || c == '-' || c == '_'
  }

  /** The separator `cleanString` writes: `_` when asked for underscores, `-` otherwise. */
  function SeparatorFor(useUnderscore: bool): char {
    if useUnderscore then '_' else '-'
  }

  /**
   * A slug written with separator `sep`: lower-case words joined by single
   * `sep`s, never a leading, trailing or doubled separator.
   */
  predicate IsSlug(s: string, sep: char) {
    && SingleSeparated(s, sep, IsSlugSeparator)
    && forall i :: 0 <= i < |s| ==> !IsUpper(s[i])
  }

  /**
   * cleanString(text, useUnderscore): lower-cases the text and joins its words
   * (the runs between whitespace, `/`, `-` and `_`) with one separator each.
   */
  function CleanString(text: string, useUnderscore: bool): (r: string)
    ensures IsSlug(r, SeparatorFor(useUnderscore))
    ensures useUnderscore ==> '-' !in r
    ensures !useUnderscore ==> '_' !in r
  {
    var sep := SeparatorFor(useUnderscore);
    var ws := Words(Lower(text), IsSlugSeparator);
    JoinIsSingleSeparated(ws, sep, IsSlugSeparator);
    WordsKeep(Lower(text), IsSlugSeparator, c => !IsUpper(c));
    JoinKeeps(ws, sep, c => !IsUpper(c));
    var r := Join(ws, sep);
    assert forall i :: 0 <= i < |r| ==> r[i] == sep || !IsSlugSeparator(r[i]);
    r
  }

  /** Lower-casing never turns a separator into a non-separator or back. */
  lemma LowerKeepsSeparators(c: char)
    ensures IsSlugSeparator(ToLower(c)) == IsSlugSeparator(c)
  {
  }

  /** A single word comes out lower-cased and otherwise unchanged. */
  lemma CleanStringWord(w: string, useUnderscore: bool)
    requires IsWord(w, IsSlugSeparator)
    ensures CleanString(w, useUnderscore) == Lower(w)
  {
    forall i | 0 <= i < |w| ensures !IsSlugSeparator(Lower(w)[i]) {
      LowerKeepsSeparators(w[i]);
    }
    WordsOfWord(Lower(w), IsSlugSeparator);
  }

  /**
   * A separator character anywhere in the text (and so any run of them)
   * becomes at most one separator in the slug: none at either end.
   */
  lemma CleanStringSplit(x: string, c: char, y: string, useUnderscore: bool)
    requires IsSlugSeparator(c)
    ensures CleanString(x + [c] + y, useUnderscore)
         == Glue(CleanString(x, useUnderscore), CleanString(y, useUnderscore), SeparatorFor(useUnderscore))
  {
    LowerAppend(x + [c], y);
    LowerAppend(x, [c]);
    assert Lower(x + [c] + y) == Lower(x) + [c] + Lower(y);
    WordsSplit(Lower(x), c, Lower(y), IsSlugSeparator);
    JoinAppend(Words(Lower(x), IsSlugSeparator), Words(Lower(y), IsSlugSeparator), SeparatorFor(useUnderscore));
  }

  /** Separators at either end of the text leave no trace in the slug. */
  lemma CleanStringDropsEdgeSeparators(c: char, text: string, useUnderscore: bool)
    requires IsSlugSeparator(c)
    ensures CleanString([c] + text, useUnderscore) == CleanString(text, useUnderscore)
    ensures CleanString(text + [c], useUnderscore) == CleanString(text, useUnderscore)
  {
    CleanStringSplit([], c, text, useUnderscore);
    assert [] + [c] + text == [c] + text;
    CleanStringSplit(text, c, [], useUnderscore);
    assert text + [c] + [] == text + [c];
  }

  /** Words joined by any one separator character come out lower-cased, joined by the slug separator. */
  lemma CleanStringOfWords(ws: seq<string>, c: char, useUnderscore: bool)
    requires IsSlugSeparator(c)
    requires forall i :: 0 <= i < |ws| ==> IsWord(ws[i], IsSlugSeparator)
    ensures CleanString(Join(ws, c), useUnderscore) == Join(LowerEach(ws), SeparatorFor(useUnderscore))
  {
    LowerJoin(ws, c);
    forall i | 0 <= i < |ws| ensures IsWord(LowerEach(ws)[i], IsSlugSeparator) {
      forall j | 0 <= j < |ws[i]| ensures !IsSlugSeparator(Lower(ws[i])[j]) {
        LowerKeepsSeparators(ws[i][j]);
      }
    }
    WordsOfJoin(LowerEach(ws), c, IsSlugSeparator);
  }

  /** Words already in lower case are their own lower-case form. */
  lemma LowerEachOfLowercase(ws: seq<string>)
    requires forall i, j :: 0 <= i < |ws| && 0 <= j < |ws[i]| ==> !IsUpper(ws[i][j])
    ensures LowerEach(ws) == ws
  {
    forall i | 0 <= i < |ws| ensures Lower(ws[i]) == ws[i] {
    }
  }

  /** A slug is left as it is. */
  lemma CleanStringKeepsSlug(s: string, useUnderscore: bool)
    requires IsSlug(s, SeparatorFor(useUnderscore))
    ensures CleanString(s, useUnderscore) == s
  {
    assert Lower(s) == s;
    JoinOfWords(s, SeparatorFor(useUnderscore), IsSlugSeparator);
  }

  /** Cleaning twice is cleaning once. */
  lemma CleanStringIdempotent(text: string, useUnderscore: bool)
    ensures CleanString(CleanString(text, useUnderscore), useUnderscore) == CleanString(text, useUnderscore)
  {
    CleanStringKeepsSlug(CleanString(text, useUnderscore), useUnderscore);
  }

  /** Every `-` replaced by `_`. */
  function DashesToUnderscores(s: string): (r: string)
    ensures |r| == |s|
    ensures forall i :: 0 <= i < |s| ==> r[i] == if s[i] == '-' then '_' else s[i]
  {
    seq(|s|, i requires 0 <= i < |s| => if s[i] == '-' then '_' else s[i])
  }

  /**
   * The underscore form is the dashed form with every `-` turned into `_`
   * (hyphens already in the input included).
   */
  lemma CleanStringUnderscores(text: string)
    ensures CleanString(text, true) == DashesToUnderscores(CleanString(text, false))
  {
    JoinDashesToUnderscores(Words(Lower(text), IsSlugSeparator));
  }

  lemma {:induction false} JoinDashesToUnderscores(ws: seq<string>)
    requires forall i :: 0 <= i < |ws| ==> IsWord(ws[i], IsSlugSeparator)
    ensures Join(ws, '_') == DashesToUnderscores(Join(ws, '-'))
  {
    if |ws| == 1 {
      assert DashesToUnderscores(ws[0]) == ws[0];
    } else if |ws| > 1 {
      JoinDashesToUnderscores(ws[1..]);
      assert DashesToUnderscores(ws[0]) == ws[0];
      var a, b := ws[0] + ['-'], Join(ws[1..], '-');
      assert DashesToUnderscores(a + b) == DashesToUnderscores(a) + DashesToUnderscores(b);
    }
  }

  // ---------------------------------------------------------------------------
  // slugToTitle

  /** Characters that `slugToTitle` turns into the space between two words. */
  predicate IsTitleSeparator(c: char) {
    IsWhitespace(c) || c == '-' || c == '_'
  }

  /** The text after the last `/` of a path (all of it when there is none). */
  function LastSegment(path: string): (r: string)
    ensures '/' !in r
    ensures |r| <= |path|
    ensures forall i :: 0 <= i < |r| ==> r[i] == path[|path| - |r| + i]
    ensures |r| < |path| ==> path[|path| - |r| - 1] == '/'
  {
    if path == [] || path[|path| - 1] == '/' then []
    else LastSegment(path[..|path| - 1]) + [path[|path| - 1]]
  }

  /** Index of the `.` that starts the extension of the last path segment, if there is one. */
  function ExtensionStart(path: string): (r: Option<nat>)
    ensures r.Some? ==> r.value < |path| && path[r.value] == '.'
    ensures r.Some? ==> forall i :: r.value < i < |path| ==> path[i] != '/'
  {
    if path == [] || path[|path| - 1] == '/' then None
    else if path[|path| - 1] == '.' then Some(|path| - 1)
    else ExtensionStart(path[..|path| - 1])
  }

  /** The path without the extension of its last segment. */
  function StripExtension(path: string): (r: string)
    ensures |r| <= |path| && r == path[..|r|]
  {
    match ExtensionStart(path)
    case None => path
    case Some(i) => path[..i]
  }

  /** Upper-cases the first character of a word and keeps the rest. */
  function Capitalize(w: string): (r: string)
    ensures |r| == |w|
    ensures w != [] ==> !IsLower(r[0])
    ensures forall i :: 0 < i < |w| ==> r[i] == w[i]
    ensures Lower(r) == Lower(w)
  {
    if w == [] then [] else [ToUpper(w[0])] + w[1..]
  }

  function CapitalizeEach(ws: seq<string>): (r: seq<string>)
    ensures |r| == |ws|
    ensures forall i :: 0 <= i < |ws| ==> r[i] == Capitalize(ws[i])
  {
    seq(|ws|, i requires 0 <= i < |ws| => Capitalize(ws[i]))
  }

  /** The words of a file name, each capitalised, joined by single spaces. */
  function Title(name: string): string {
    Join(CapitalizeEach(Words(name, IsTitleSeparator)), ' ')
  }

  /**
   * slugToTitle(pathOrSlug): the last path segment without its extension, its
   * words (split at whitespace, `-` and `_`) each with a capital first letter,
   * joined by single spaces.
   */
  function SlugToTitle(pathOrSlug: string): (r: string)
    ensures SingleSeparated(r, ' ', IsTitleSeparator)
    ensures '/' !in r
    ensures forall k :: 0 <= k < |r| && (k == 0 || r[k - 1] == ' ') ==> !IsLower(r[k])
  {
    var name := StripExtension(LastSegment(pathOrSlug));
    NameHasNoSlash(pathOrSlug);
    TitleShape(name);
    Title(name)
  }

  /**
   * A slug made of words joined by one of the title separators gets the title
   * made of the same words, each capitalised, joined by single spaces.
   */
  lemma SlugToTitleOfWords(ws: seq<string>, c: char)
    requires IsTitleSeparator(c)
    requires forall i :: 0 <= i < |ws| ==> IsWord(ws[i], IsTitleSeparator)
    requires forall i, j :: 0 <= i < |ws| && 0 <= j < |ws[i]| ==> ws[i][j] != '/' && ws[i][j] != '.'
    ensures SlugToTitle(Join(ws, c)) == Join(CapitalizeEach(ws), ' ')
  {
    var s := Join(ws, c);
    JoinKeeps(ws, c, ch => ch != '/' && ch != '.');
    NameOfPlainName(s);
    WordsOfJoin(ws, c, IsTitleSeparator);
  }

  lemma NameHasNoSlash(path: string)
    ensures '/' !in StripExtension(LastSegment(path))
  {
    var seg := LastSegment(path);
    var name := StripExtension(seg);
    forall k | 0 <= k < |name| ensures name[k] != '/' {
      assert name[k] == seg[k];
    }
  }

  lemma CapitalizedWords(ws: seq<string>)
    requires forall i :: 0 <= i < |ws| ==> IsWord(ws[i], IsTitleSeparator)
    ensures forall i :: 0 <= i < |ws| ==> IsWord(CapitalizeEach(ws)[i], IsTitleSeparator)
  {
    var caps := CapitalizeEach(ws);
    forall i, j | 0 <= i < |caps| && 0 <= j < |caps[i]| ensures !IsTitleSeparator(caps[i][j]) {
      assert !IsTitleSeparator(ws[i][j]);
    }
  }

  lemma TitleShape(name: string)
    requires '/' !in name
    ensures SingleSeparated(Title(name), ' ', IsTitleSeparator)
    ensures '/' !in Title(name)
    ensures forall k :: 0 <= k < |Title(name)| && (k == 0 || Title(name)[k - 1] == ' ') ==> !IsLower(Title(name)[k])
  {
    var ws := Words(name, IsTitleSeparator);
    var caps := CapitalizeEach(ws);
    CapitalizedWords(ws);
    JoinIsSingleSeparated(caps, ' ', IsTitleSeparator);
    WordsKeep(name, IsTitleSeparator, c => c != '/');
    forall i, j | 0 <= i < |caps| && 0 <= j < |caps[i]| ensures caps[i][j] != '/' && caps[i][j] != ' ' {
      assert IsWord(caps[i], IsTitleSeparator);
      if j > 0 { assert caps[i][j] == ws[i][j]; }
    }
    JoinKeeps(caps, ' ', c => c != '/');
    JoinInitials(caps, ' ', c => !IsLower(c));
  }

  lemma {:induction false} LastSegmentAfterSlash(dir: string, name: string)
    ensures LastSegment(dir + "/" + name) == LastSegment(name)
    decreases |name|
  {
    var p := dir + "/" + name;
    if name == [] {
      assert p[|p| - 1] == '/';
    } else {
      assert p[..|p| - 1] == dir + "/" + name[..|name| - 1];
      LastSegmentAfterSlash(dir, name[..|name| - 1]);
    }
  }

  lemma {:induction false} LastSegmentAppend(p: string, tail: string)
    requires '/' !in tail
    ensures LastSegment(p + tail) == LastSegment(p) + tail
    decreases |tail|
  {
    if tail != [] {
      var t := tail[..|tail| - 1];
      assert (p + tail)[..|p + tail| - 1] == p + t;
      LastSegmentAppend(p, t);
      assert tail == t + [tail[|tail| - 1]];
    } else {
      assert p + tail == p;
    }
  }

  lemma {:induction false} ExtensionStartOfNoDot(p: string)
    requires '.' !in p
    ensures ExtensionStart(p) == None
    decreases |p|
  {
    if p != [] && p[|p| - 1] != '/' {
      ExtensionStartOfNoDot(p[..|p| - 1]);
    }
  }

  lemma {:induction false} ExtensionStartAppend(p: string, ext: string)
    requires '.' !in ext && '/' !in ext
    ensures ExtensionStart(p + "." + ext) == Some(|p|)
    decreases |ext|
  {
    var q := p + "." + ext;
    if ext != [] {
      var e := ext[..|ext| - 1];
      assert q[..|q| - 1] == p + "." + e;
      assert q[|q| - 1] == ext[|ext| - 1];
      ExtensionStartAppend(p, e);
    }
  }

  /** Only the last path segment matters for the title. */
  lemma SlugToTitleLastSegment(dir: string, name: string)
    ensures SlugToTitle(dir + "/" + name) == SlugToTitle(name)
  {
    LastSegmentAfterSlash(dir, name);
  }

  /** A name without `.` has no extension to strip. */
  lemma StripExtensionOfNoDot(p: string)
    requires '.' !in p
    ensures StripExtension(p) == p
  {
    ExtensionStartOfNoDot(p);
  }

  /** The last segment of a path holding neither `/` nor `.` is the path itself, extension-free. */
  lemma NameOfPlainName(s: string)
    requires '/' !in s && '.' !in s
    ensures StripExtension(LastSegment(s)) == s
  {
    LastSegmentAppend([], s);
    assert [] + s == s;
    StripExtensionOfNoDot(s);
  }

  lemma LastSegmentKeepsNoDot(name: string)
    requires '.' !in name
    ensures '.' !in LastSegment(name)
  {
  }

  lemma StripExtensionAppend(seg: string, ext: string)
    requires '.' !in ext && '/' !in ext
    ensures StripExtension(seg + ("." + ext)) == seg
  {
    assert seg + ("." + ext) == seg + "." + ext;
    ExtensionStartAppend(seg, ext);
    assert (seg + "." + ext)[..|seg|] == seg;
  }

  lemma NameWithExtension(name: string, ext: string)
    requires '.' !in name
    requires '.' !in ext && '/' !in ext
    ensures StripExtension(LastSegment(name + "." + ext)) == StripExtension(LastSegment(name))
  {
    var seg := LastSegment(name);
    var dotExt := "." + ext;
    assert '/' !in dotExt;
    assert name + "." + ext == name + dotExt;
    LastSegmentAppend(name, dotExt);
    LastSegmentKeepsNoDot(name);
    StripExtensionAppend(seg, ext);
    StripExtensionOfNoDot(seg);
  }

  /** The file extension does not reach the title. */
  lemma SlugToTitleDropsExtension(name: string, ext: string)
    requires '.' !in name
    requires '.' !in ext && '/' !in ext
    ensures SlugToTitle(name + "." + ext) == SlugToTitle(name)
  {
    NameWithExtension(name, ext);
  }

  /** Cleaning the title of a dashed slug word list gives the slug back. */
  lemma TitleRoundTrip(s: string)
    requires IsSlug(s, '-')
    ensures CleanString(Title(s), false) == s
  {
    var ws := Words(s, IsTitleSeparator);
    assert SingleSeparated(s, '-', IsTitleSeparator);
    JoinOfWords(s, '-', IsTitleSeparator);
    WordsKeep(s, IsTitleSeparator, c => c == '-' || (!IsSlugSeparator(c) && !IsUpper(c)));
    forall i | 0 <= i < |ws| ensures IsWord(ws[i], IsSlugSeparator) && Lower(ws[i]) == ws[i] {
      assert forall j :: 0 <= j < |ws[i]| ==> !IsTitleSeparator(ws[i][j]);
    }
    var caps := CapitalizeEach(ws);
    LowerJoin(caps, ' ');
    assert LowerEach(caps) == ws;
    WordsOfJoin(ws, ' ', IsSlugSeparator);
  }

  /**
   * slugToTitle is a left inverse of cleanString's dashed form on file names:
   * cleaning the title of a slug gives the slug back.
   */
  lemma SlugToTitleRoundTrip(s: string)
    requires IsSlug(s, '-')
    requires '/' !in s && '.' !in s
    ensures CleanString(SlugToTitle(s), false) == s
  {
    NameOfPlainName(s);
    TitleRoundTrip(s);
  }
}

=== FILE: text.dfy ===
/**
 * Character classes, ASCII case mapping and the word/separator algebra that the
 * string helpers of the documentation engine are built from.
 */
module Text {

  datatype Option<T> = None | Some(value: T)

  /** ASCII whitespace, the class the helpers treat as blank. */
  predicate IsWhitespace(c: char) {
    c == ' ' || c == '\t' || c == '\n' || c == '\r' || c == '\U{0B}' || c == '\U{0C}'
  }

  predicate IsUpper(c: char) { 'A' <= c <= 'Z' }

  predicate IsLower(c: char) { 'a' <= c <= 'z' }

  function ToLower(c: char): (r: char)
    ensures !IsUpper(r)
    ensures IsUpper(c) ==> IsLower(r)
    ensures !IsUpper(c) ==> r == c
  {
    if IsUpper(c) then (c as int + 32) as char else c
  }

  function ToUpper(c: char): (r: char)
    ensures !IsLower(r)
    ensures IsLower(c) ==> IsUpper(r) && ToLower(r) == c
    ensures !IsLower(c) ==> r == c
  {
    if IsLower(c) then (c as int - 32) as char else c
  }

  /** Lower-cases every ASCII letter of `s`, leaving every other character alone. */
  function Lower(s: string): (r: string)
    ensures |r| == |s|
    ensures forall i :: 0 <= i < |s| ==> r[i] == ToLower(s[i])
  {
    seq(|s|, i requires 0 <= i < |s| => ToLower(s[i]))
  }

  function LowerEach(ws: seq<string>): (r: seq<string>)
    ensures |r| == |ws|
    ensures forall i :: 0 <= i < |ws| ==> r[i] == Lower(ws[i])
  {
    seq(|ws|, i requires 0 <= i < |ws| => Lower(ws[i]))
  }

  /** A word: a non-empty run of characters none of which is a separator. */
  predicate IsWord(w: string, isSep: char -> bool) {
    w != [] && forall i :: 0 <= i < |w| ==> !isSep(w[i])
  }

  /**
   * `s` is made of words joined by single copies of the separator `c`: no
   * leading or trailing `c`, never two `c` in a row, no other separator.
   */
  predicate SingleSeparated(s: string, c: char, isSep: char -> bool) {
    && isSep(c)
    && (s != [] ==> s[0] != c && s[|s| - 1] != c)
    && (forall i :: 0 <= i < |s| && s[i] != c ==> !isSep(s[i]))
    && (forall i :: 0 < i < |s| ==> !Doubled(s, i, c))
  }

  /** Positions `i - 1` and `i` of `s` both hold `c`. */
  predicate Doubled(s: string, i: nat, c: char)
    requires 0 < i < |s|
  {
    s[i - 1] == c && s[i] == c
  }

  /** Length of the longest prefix of `s` holding no separator. */
  function WordLength(s: string, isSep: char -> bool): (n: nat)
    ensures n <= |s|
    ensures forall i :: 0 <= i < n ==> !isSep(s[i])
    ensures n < |s| ==> isSep(s[n])
  {
    if s == [] || isSep(s[0]) then 0 else 1 + WordLength(s[1..], isSep)
  }

  /** The maximal runs of non-separator characters of `s`, in order. */
  function Words(s: string, isSep: char -> bool): (ws: seq<string>)
    ensures forall i :: 0 <= i < |ws| ==> IsWord(ws[i], isSep)
    ensures s != [] && !isSep(s[0]) ==> ws != [] && |ws[0]| > 0 && ws[0][0] == s[0]
    decreases |s|
  {
    if s == [] then []
    else if isSep(s[0]) then Words(s[1..], isSep)
    else
      var n := WordLength(s, isSep);
      [s[..n]] + Words(s[n..], isSep)
  }

  /** The words of `ws` with one `c` between each two neighbours. */
  function Join(ws: seq<string>, c: char): string {
    if ws == [] then []
    else if |ws| == 1 then ws[0]
    else ws[0] + [c] + Join(ws[1..], c)
  }

  /** Joins two pieces with `c`, dropping the separator when a piece is empty. */
  function Glue(a: string, b: string, c: char): string {
    if a == [] then b else if b == [] then a else a + [c] + b
  }

  /** Drops leading and trailing whitespace, and nothing else. */
  function Trim(s: string): (r: string)
    ensures r == [] || (!IsWhitespace(r[0]) && !IsWhitespace(r[|r| - 1]))
    ensures exists i, j :: 0 <= i <= j <= |s| && r == s[i..j]
                           && (forall k :: 0 <= k < i ==> IsWhitespace(s[k]))
                           && (forall k :: j <= k < |s| ==> IsWhitespace(s[k]))
  {
    var t := TrimStart(s);
    var r := TrimEnd(t);
    TrimmedSlice(s, t, r);
    r
  }

  /**
   * A prefix `r` of a suffix `t` of `s`, with only whitespace cut off at
   * the end, is a slice of `s` with only whitespace after it.
   */
  lemma TrimmedSlice(s: string, t: string, r: string)
    requires |t| <= |s| && t == s[|s| - |t|..]
    requires |r| <= |t| && r == t[..|r|] && forall k :: |r| <= k < |t| ==> IsWhitespace(t[k])
    ensures r == s[|s| - |t|..|s| - |t| + |r|]
    ensures forall k :: |s| - |t| + |r| <= k < |s| ==> IsWhitespace(s[k])
  {
    var i := |s| - |t|;
    forall k | i + |r| <= k < |s|
      ensures IsWhitespace(s[k])
    {
      assert s[k] == t[k - i];
    }
  }

  function TrimStart(s: string): (r: string)
    ensures r == [] || !IsWhitespace(r[0])
    ensures |r| <= |s| && r == s[|s| - |r|..]
    ensures forall k :: 0 <= k < |s| - |r| ==> IsWhitespace(s[k])
  {
    if s != [] && IsWhitespace(s[0]) then TrimStart(s[1..]) else s
  }

  function TrimEnd(s: string): (r: string)
    ensures r == [] || !IsWhitespace(r[|r| - 1])
    ensures |r| <= |s| && r == s[..|r|]
    ensures forall k :: |r| <= k < |s| ==> IsWhitespace(s[k])
    ensures r != [] ==> r[0] == s[0]
  {
    if s != [] && IsWhitespace(s[|s| - 1]) then TrimEnd(s[..|s| - 1]) else s
  }

  /** Whitespace in front of text that starts with a non-blank is all that trimming drops. */
  lemma {:induction false} TrimPadded(pad: string, v: string)
    requires forall k :: 0 <= k < |pad| ==> IsWhitespace(pad[k])
    requires v == [] || (!IsWhitespace(v[0]) && !IsWhitespace(v[|v| - 1]))
    ensures Trim(pad + v) == v
  {
    TrimStartPadded(pad, v);
  }

  lemma {:induction false} TrimStartPadded(pad: string, v: string)
    requires forall k :: 0 <= k < |pad| ==> IsWhitespace(pad[k])
    requires v == [] || !IsWhitespace(v[0])
    ensures TrimStart(pad + v) == v
  {
    if pad == [] {
      assert pad + v == v;
    } else {
      assert (pad + v)[1..] == pad[1..] + v;
      TrimStartPadded(pad[1..], v);
    }
  }

  /** Concatenation regrouped to the right. */
  lemma Regroup3(a: string, b: string, c: string)
    ensures a + b + c == a + (b + c)
  {
  }

  lemma Regroup4(a: string, b: string, c: string, d: string)
    ensures a + b + c + d == a + (b + (c + d))
  {
  }

  // ---------------------------------------------------------------------------
  // The algebra of words and separators

  /** WordLength is the position of the first separator (or the length). */
  lemma WordLengthIs(s: string, isSep: char -> bool, n: nat)
    requires n <= |s|
    requires forall i :: 0 <= i < n ==> !isSep(s[i])
    requires n < |s| ==> isSep(s[n])
    ensures WordLength(s, isSep) == n
  {
  }

  /** A single word splits into itself. */
  lemma WordsOfWord(w: string, isSep: char -> bool)
    requires IsWord(w, isSep)
    ensures Words(w, isSep) == [w]
  {
    WordLengthIs(w, isSep, |w|);
    assert w[..|w|] == w;
    assert w[|w|..] == [];
  }

  /** Splitting the words joined by a separator gives the words back. */
  lemma {:induction false} WordsOfJoin(ws: seq<string>, c: char, isSep: char -> bool)
    requires isSep(c)
    requires forall i :: 0 <= i < |ws| ==> IsWord(ws[i], isSep)
    ensures Words(Join(ws, c), isSep) == ws
  {
    if ws == [] {
    } else if |ws| == 1 {
      WordsOfWord(ws[0], isSep);
    } else {
      var w, rest := ws[0], Join(ws[1..], c);
      var s := w + [c] + rest;
      assert s == Join(ws, c);
      WordLengthIs(s, isSep, |w|);
      assert s[..|w|] == w;
      assert s[|w|..] == [c] + rest;
      assert ([c] + rest)[1..] == rest;
      WordsOfJoin(ws[1..], c, isSep);
      assert ws == [w] + ws[1..];
    }
  }

  /** A single-separated string is the join of its own words. */
  lemma {:induction false} JoinOfWords(s: string, c: char, isSep: char -> bool)
    requires SingleSeparated(s, c, isSep)
    ensures Join(Words(s, isSep), c) == s
    decreases |s|
  {
    if s != [] {
      var n := WordLength(s, isSep);
      if n == |s| {
        assert s[..n] == s && s[n..] == [];
      } else {
        assert !isSep(s[0]);
        SeparatedTail(s, n, c, isSep);
        JoinOfWords(s[n + 1..], c, isSep);
        JoinOfWordsStep(s, n, c, isSep);
      }
    }
  }

  /** The inductive step of JoinOfWords: the first word, its separator, then the rest rejoined. */
  lemma JoinOfWordsStep(s: string, n: nat, c: char, isSep: char -> bool)
    requires 0 < n && n + 1 < |s| && n == WordLength(s, isSep)
    requires s[n] == c && isSep(c) && !isSep(s[n + 1])
    requires Join(Words(s[n + 1..], isSep), c) == s[n + 1..]
    ensures Join(Words(s, isSep), c) == s
  {
    var w, ws := s[..n], Words(s[n + 1..], isSep);
    assert ws != [];
    calc {
      Join(Words(s, isSep), c);
    == { WordsAtSeparator(s, n, isSep); }
      Join([w] + ws, c);
    == { JoinCons(w, ws, c); }
      w + [c] + s[n + 1..];
    == { assert s == w + [s[n]] + s[n + 1..]; }
      s;
    }
  }

  /** Past the first word, the words of `s` are those after the separator that ends it. */
  lemma WordsAtSeparator(s: string, n: nat, isSep: char -> bool)
    requires n < |s| && n == WordLength(s, isSep) && isSep(s[n]) && n > 0
    ensures Words(s, isSep) == [s[..n]] + Words(s[n + 1..], isSep)
  {
    assert s[n..][1..] == s[n + 1..];
  }

  /** Joining a word in front of a non-empty list puts one separator after it. */
  lemma JoinCons(w: string, ws: seq<string>, c: char)
    requires ws != []
    ensures Join([w] + ws, c) == w + [c] + Join(ws, c)
  {
    assert ([w] + ws)[1..] == ws;
  }

  /** What follows the first separator of a single-separated string is single-separated and non-empty. */
  lemma SeparatedTail(s: string, n: nat, c: char, isSep: char -> bool)
    requires SingleSeparated(s, c, isSep)
    requires n < |s| && isSep(s[n])
    ensures s[n] == c && n + 1 < |s|
    ensures SingleSeparated(s[n + 1..], c, isSep) && s[n + 1] != c
  {
    var tail := s[n + 1..];
    assert s[n] == c && n + 1 < |s|;
    assert !Doubled(s, n + 1, c);
    forall i | 0 < i < |tail| ensures !Doubled(tail, i, c) {
      assert tail[i] == s[n + 1 + i] && tail[i - 1] == s[n + i];
      assert !Doubled(s, n + 1 + i, c);
    }
  }

  /** Joining words (that contain no separator) gives a single-separated string. */
  lemma {:induction false} JoinIsSingleSeparated(ws: seq<string>, c: char, isSep: char -> bool)
    requires isSep(c)
    requires forall i :: 0 <= i < |ws| ==> IsWord(ws[i], isSep)
    ensures SingleSeparated(Join(ws, c), c, isSep)
    ensures ws != [] ==> Join(ws, c) != []
  {
    if |ws| == 1 {
    } else if |ws| > 1 {
      var w, rest := ws[0], Join(ws[1..], c);
      JoinIsSingleSeparated(ws[1..], c, isSep);
      var s := w + [c] + rest;
      assert s == Join(ws, c);
      forall i | 0 <= i < |s| && s[i] != c ensures !isSep(s[i]) {
        if i > |w| { assert s[i] == rest[i - |w| - 1]; }
      }
      forall i | 0 < i < |s| ensures !Doubled(s, i, c) {
        if i > |w| + 1 {
          assert s[i] == rest[i - |w| - 1] && s[i - 1] == rest[i - |w| - 2];
          assert !Doubled(rest, i - |w| - 1, c);
        }
      }
    }
  }

  /** Every character of every word of `s` satisfies a property that all of `s` satisfies. */
  lemma {:induction false} WordsKeep(s: string, isSep: char -> bool, P: char -> bool)
    requires forall k :: 0 <= k < |s| ==> P(s[k])
    ensures forall i, j :: 0 <= i < |Words(s, isSep)| && 0 <= j < |Words(s, isSep)[i]| ==> P(Words(s, isSep)[i][j])
    decreases |s|
  {
    if s != [] {
      if isSep(s[0]) {
        WordsKeep(s[1..], isSep, P);
      } else {
        var n := WordLength(s, isSep);
        WordsKeep(s[n..], isSep, P);
        var ws := Words(s, isSep);
        assert ws == [s[..n]] + Words(s[n..], isSep);
        forall i, j | 0 <= i < |ws| && 0 <= j < |ws[i]| ensures P(ws[i][j]) {
          if i > 0 { assert ws[i] == Words(s[n..], isSep)[i - 1]; }
        }
      }
    }
  }

  /** Every character of a join is either the separator or a character of a word. */
  lemma {:induction false} JoinKeeps(ws: seq<string>, c: char, P: char -> bool)
    requires P(c)
    requires forall i, j :: 0 <= i < |ws| && 0 <= j < |ws[i]| ==> P(ws[i][j])
    ensures forall k :: 0 <= k < |Join(ws, c)| ==> P(Join(ws, c)[k])
  {
    if |ws| > 1 {
      JoinKeeps(ws[1..], c, P);
      var w, rest := ws[0], Join(ws[1..], c);
      forall k | 0 <= k < |Join(ws, c)| ensures P(Join(ws, c)[k]) {
        assert Join(ws, c) == w + [c] + rest;
        if k < |w| { assert P(ws[0][k]); }
        else if k > |w| { assert Join(ws, c)[k] == rest[k - |w| - 1]; }
      }
    }
  }

  /**
   * In a join of words holding no `c`, the character that opens each word (the
   * first one, or one right after a `c`) is the first character of some word.
   */
  lemma {:induction false} JoinInitials(ws: seq<string>, c: char, P: char -> bool)
    requires forall i :: 0 <= i < |ws| ==> ws[i] != [] && P(ws[i][0])
    requires forall i, j :: 0 <= i < |ws| && 0 <= j < |ws[i]| ==> ws[i][j] != c
    ensures forall k :: 0 <= k < |Join(ws, c)| && (k == 0 || Join(ws, c)[k - 1] == c) ==> P(Join(ws, c)[k])
  {
    var s := Join(ws, c);
    if |ws| > 1 {
      JoinInitials(ws[1..], c, P);
      var w, rest := ws[0], Join(ws[1..], c);
      assert s == w + [c] + rest;
      forall k | 0 <= k < |s| && (k == 0 || s[k - 1] == c) ensures P(s[k]) {
        if 0 < k <= |w| {
          assert false;
        } else if k > |w| + 1 {
          assert s[k] == rest[k - |w| - 1] && s[k - 1] == rest[k - |w| - 2];
        }
      }
    } else if |ws| == 1 {
      forall k | 0 <= k < |s| && (k == 0 || s[k - 1] == c) ensures P(s[k]) {
        if k > 0 {
          assert false;
        }
      }
    }
  }

  /** A separator anywhere splits the words of a string in two. */
  lemma {:induction false} WordsSplit(x: string, c: char, y: string, isSep: char -> bool)
    requires isSep(c)
    ensures Words(x + [c] + y, isSep) == Words(x, isSep) + Words(y, isSep)
    decreases |x|
  {
    var s := x + [c] + y;
    if x == [] {
      assert s[1..] == y;
    } else if isSep(x[0]) {
      assert s[1..] == x[1..] + [c] + y;
      WordsSplit(x[1..], c, y, isSep);
    } else {
      var m := WordLength(x, isSep);
      WordLengthIs(s, isSep, m);
      assert s[..m] == x[..m];
      assert s[m..] == x[m..] + [c] + y;
      WordsSplit(x[m..], c, y, isSep);
    }
  }

  /** Joining two lists of words is gluing their joins. */
  lemma {:induction false} JoinAppend(a: seq<string>, b: seq<string>, c: char)
    requires forall i :: 0 <= i < |a| ==> a[i] != []
    requires forall i :: 0 <= i < |b| ==> b[i] != []
    ensures Join(a + b, c) == Glue(Join(a, c), Join(b, c), c)
  {
    if a == [] {
      assert a + b == b;
    } else if |a| == 1 {
      if b != [] {
        JoinNonEmpty(b, c);
        assert a + b == [a[0]] + b;
        assert (a + b)[1..] == b;
      }
    } else {
      JoinAppend(a[1..], b, c);
      JoinNonEmpty(a[1..], c);
      assert (a + b)[1..] == a[1..] + b;
    }
  }

  lemma JoinNonEmpty(ws: seq<string>, c: char)
    requires ws != [] && ws[0] != []
    ensures Join(ws, c) != []
  {
  }

  /** Lower-casing a join lower-cases each word. */
  lemma {:induction false} LowerJoin(ws: seq<string>, c: char)
    requires !IsUpper(c)
    ensures Lower(Join(ws, c)) == Join(LowerEach(ws), c)
  {
    if |ws| > 1 {
      LowerJoin(ws[1..], c);
      assert LowerEach(ws)[1..] == LowerEach(ws[1..]);
      LowerAppend(ws[0] + [c], Join(ws[1..], c));
      LowerAppend(ws[0], [c]);
    }
  }

  lemma LowerAppend(a: string, b: string)
    ensures Lower(a + b) == Lower(a) + Lower(b)
  {
  }
}

=== FILE: var_substitution.dfy ===
/**
 * processVars: the configured variables written into a document as `%name%`
 * placeholders are replaced by their values.
 */
module VarSubstitution {
  import opened Text

  /** Index of the first `%` of `s` at or after `from`. */
  function NextPercent(s: string, from: nat): (r: Option<nat>)
    ensures r.Some? ==> from <= r.value < |s| && s[r.value] == '%'
    ensures forall i :: from <= i < |s| && (r.None? || i < r.value) ==> s[i] != '%'
    decreases |s| - from
  {
    if from >= |s| then None
    else if s[from] == '%' then Some(from)
    else NextPercent(s, from + 1)
  }

  /**
   * When `text` opens with `%name%` for a `name` that is a variable, the index
   * of the closing `%`.
   */
  function Placeholder(text: string, vars: map<string, string>): (r: Option<nat>)
    ensures r.Some? ==> 1 <= r.value < |text| && text[0] == '%' && text[r.value] == '%'
    ensures r.Some? ==> '%' !in text[1..r.value] && text[1..r.value] in vars
  {
    if text == [] || text[0] != '%' then None
    else match NextPercent(text, 1)
      case None => None
      case Some(j) =>
        assert forall i :: 0 <= i < j - 1 ==> text[1..j][i] == text[i + 1];
        if text[1..j] in vars then Some(j) else None
  }

  /**
   * processVars(text, vars): one left-to-right pass over the text; each
   * `%name%` whose name is a variable is replaced by the variable's value,
   * which is not itself scanned again. Everything else is copied. With no
   * variables configured the text is unchanged.
   */
  function ProcessVars(text: string, vars: map<string, string>): (r: string)
    ensures vars == map[] ==> r == text
    decreases |text|
  {
    if text == [] then []
    else match Placeholder(text, vars)
      case Some(j) => vars[text[1..j]] + ProcessVars(text[j + 1..], vars)
      case None =>
        assert text == [text[0]] + text[1..];
        [text[0]] + ProcessVars(text[1..], vars)
  }

  /** Text with no `%` is copied as it is, and the rest is processed on its own. */
  lemma {:induction false} ProcessVarsPlain(plain: string, rest: string, vars: map<string, string>)
    requires '%' !in plain
    ensures ProcessVars(plain + rest, vars) == plain + ProcessVars(rest, vars)
  {
    if plain != [] {
      var text := plain + rest;
      assert text[0] == plain[0];
      assert text[1..] == plain[1..] + rest;
      ProcessVarsPlain(plain[1..], rest, vars);
    } else {
      assert plain + rest == rest;
    }
  }

  /** A placeholder for a variable becomes the variable's value, as it is. */
  lemma ProcessVarsReplaces(name: string, rest: string, vars: map<string, string>)
    requires '%' !in name && name in vars
    ensures ProcessVars("%" + name + "%" + rest, vars) == vars[name] + ProcessVars(rest, vars)
  {
    var text := "%" + name + "%" + rest;
    var j := |name| + 1;
    assert text[j] == '%';
    assert forall i :: 1 <= i < j ==> text[i] == name[i - 1];
    assert NextPercent(text, 1) == Some(j) by {
      NextPercentIs(text, 1, j);
    }
    assert text[1..j] == name;
    assert text[j + 1..] == rest;
  }

  /** A `%name%` whose name is not a variable is left in the text. */
  lemma ProcessVarsKeepsUnknown(name: string, rest: string, vars: map<string, string>)
    requires '%' !in name && name !in vars
    ensures ProcessVars("%" + name + "%" + rest, vars) == "%" + name + ProcessVars("%" + rest, vars)
  {
    var percent, after := "%", "%" + rest;
    UnknownIsNoPlaceholder(name, rest, vars);
    Regroup4(percent, name, percent, rest);
    ProcessVarsSkipsPercent(percent + name + percent + rest, name + after, vars);
    ProcessVarsPlain(name, after, vars);
    Regroup3(percent, name, ProcessVars(after, vars));
  }

  /** `%name%` with a name that is not a variable is no placeholder. */
  lemma UnknownIsNoPlaceholder(name: string, rest: string, vars: map<string, string>)
    requires '%' !in name && name !in vars
    ensures Placeholder("%" + name + "%" + rest, vars).None?
  {
    var text := "%" + name + "%" + rest;
    var j := |name| + 1;
    assert forall i :: 1 <= i < j ==> text[i] == name[i - 1];
    NextPercentIs(text, 1, j);
    assert text[1..j] == name;
  }

  /** A `%` where no placeholder starts is copied, and the text after it processed. */
  lemma ProcessVarsSkipsPercent(text: string, after: string, vars: map<string, string>)
    requires text == "%" + after && Placeholder(text, vars).None?
    ensures ProcessVars(text, vars) == "%" + ProcessVars(after, vars)
  {
    assert text[1..] == after;
  }

  /** A `%` with no other `%` after it is ordinary text. */
  lemma ProcessVarsLonePercent(rest: string, vars: map<string, string>)
    requires '%' !in rest
    ensures ProcessVars("%" + rest, vars) == "%" + rest
  {
    var text := "%" + rest;
    assert forall i :: 1 <= i < |text| ==> text[i] == rest[i - 1];
    assert NextPercent(text, 1) == None;
    assert text[1..] == rest;
    ProcessVarsPlain(rest, [], vars);
    assert rest + [] == rest;
  }

  lemma {:induction false} NextPercentIs(s: string, from: nat, k: nat)
    requires from <= k < |s| && s[k] == '%'
    requires forall i :: from <= i < k ==> s[i] != '%'
    ensures NextPercent(s, from) == Some(k)
    decreases k - from
  {
    if from < k {
      NextPercentIs(s, from + 1, k);
    }
  }
}
